=== FILE: README.md ===
# CSharpToLua, modelled in Dafny

CSharpToLua translates one C# source file into Lua text. A run does four things:

1. It registers the two shipped name libraries, `Console` and `Roblox`.
2. It activates one library per `using` directive. Each activation leaves a comment line in the output.
3. It normalises the syntax tree into some Lua spellings, each rule with its own reach:
   - `new T(..)` becomes `T.new(..)` when `T` is a plain identifier; any other type name makes the run throw.
   - An initializer whose value is written `null` becomes `= nil`. A `null` elsewhere, such as the right side of an assignment, is kept.
   - `(int)x` becomes `tonumber(x)` and `(string)x` becomes `tostring(x)`.
   - At a binary node whose left operand is a string literal, `+` is respelled `..`. Otherwise `!=`, `||` and `&&` are respelled `~=`, `or` and `and`. The binary rule keeps the original operands, so only the outermost operator of a nested binary expression is respelled: `a != b && c != d` comes out as `a != b and c != d`.
   - `this` becomes `self`.
   - Call names are folded through the active libraries.
4. It walks the normalised tree with a code generator. The generator writes Lua through an indenting writer and qualifies calls and assignments from two tables it fills as it goes. Finally the run appends a call of the entry point.

The model keeps this pipeline and its four components, one module per source file:

- `LuaWriter` (lua_writer.dfy): the writer. The state is the indentation, the three nesting counters (`BlockLevel`, `FunctionLevel`, `SelfLevel`) and the buffer. The buffer is a sequence of the pieces handed to the string builder, and `Text` is their concatenation. Every `Write*` template is a pure function from state to state.
- `CodeGen` (code_gen.dfy): the tree walker. Its `GenState` holds the writer, the method table (name → dotted class path), the variable table (name → path and function-locality) and the entry point. The statement and member visitors are functions that return `Result<GenState, GenError>`. The invocation and assignment overrides (`CodeGen.VisitExpr`) only write lines and cannot fail, so they return a `GenState`. A `Dictionary.Add` on a name that is already present is a failure.
- `SyntaxRewriter` (syntax_rewriter.dfy): the normaliser, as a rewrite of immutable trees. `GetMethodName` can write a comment while the tree is being rewritten, so the writer is threaded through the rewrite as well.
- `Libraries` (libraries.dfy): the `LibraryInterface` hooks, the Console and Roblox libraries, the ordered `InUse` list and the `LibraryDict` registry.
- `Program` (program.dfy): registry setup, the activation loop, pass ordering and the trailing entry-point line.
- Support: `Syntax` (the tree datatypes), `Strings` (`new string(' ', n)`, `Join`, the first and last pieces of `Split`, `Replace`) and `Wrappers` (`Option`, `Result`).

The static mutable state of the original (the writer's fields, `InUse`, `LibraryDict`) is an explicit value threaded through the calls.

## Behaviour worth knowing

- A second method with the same name makes `methods.Add` throw (CodeGen.cs:94). The model fails with `DuplicateMethod` (`CodeGen.VisitMethod`, `CodeGen.SiblingMethodsFresh`).
- Every method named `Main` or `EntryPoint` overwrites `EntryPoint` (CodeGen.cs:89-92), so the last one met wins (`CodeGen.EntryPointLastWins`).
- `GetMethodName` writes a comment for an unsupported callee (CodeGen.cs:37-41). The normaliser calls it for every invocation (SyntaxRewriter.cs:130), so normalisation can write output (`SyntaxRewriter.RewriteExprComments`).
- The binary rule visits both operands and discards the results, keeping the original operands in the new node (SyntaxRewriter.cs:69-70, 80, 96, 104, 112; `SyntaxRewriter.BinaryRule`).
- The object-creation, cast and invocation rules reuse the original argument list without rewriting it (SyntaxRewriter.cs:18, 44, 55, 134).

## Model

| member | source | states |
|---|---|---|
| LuaWriter.GetIndent | LuaWriter.cs:18-21 | The indentation prefix is exactly `indent` blanks. |
| LuaWriter.WriteL | LuaWriter.cs:23-28 | Opening a table raises the block level by one and the indentation by three. It appends one `{` line at the old indentation and touches nothing else. |
| LuaWriter.WriteLUn | LuaWriter.cs:30-35 | The same, but the `{` is written without indentation, continuing the current line. |
| LuaWriter.WriteR | LuaWriter.cs:37-42 | Closing a table lowers both counters before writing, so `}` sits at the indentation of the line that opened the table. |
| LuaWriter.OpenThenCloseTable | LuaWriter.cs:23-42 | `WriteL` followed by `WriteR` restores every level, and the `}` line has the indentation of its `{`. |
| LuaWriter.WriteGlobalEq | LuaWriter.cs:99-102 | Appends `name = ` at the current indentation, with no line break and no change to any level. |
| LuaWriter.WriteGlobalTable | LuaWriter.cs:44-48 | Opens a table as one text line `name = {`, written in two pieces, with the levels of an opened table. |
| LuaWriter.WriteOpen | LuaWriter.cs:124-156 | Every opener writes its header at the current indentation, then adds three to the indentation and one to the function level. |
| LuaWriter.WriteFunction | LuaWriter.cs:124-129 | The function header is `name = function(a, b)`, with the parameters joined by `, `. |
| LuaWriter.WriteIf | LuaWriter.cs:131-136 | The header is `if c then`; the levels change as for every opener. |
| LuaWriter.WriteWhile | LuaWriter.cs:138-143 | The header is `while c do`; the levels change as for every opener. |
| LuaWriter.WriteFor | LuaWriter.cs:144-149 | The header is `for i = 0, n do`: the counter, its initializer text with its `=`, a comma and the bound. |
| LuaWriter.WriteForPairs | LuaWriter.cs:151-156 | The header is `for v_index,v in pairs(c) do`. |
| LuaWriter.WriteEnd | LuaWriter.cs:157-164 | Lowers the indentation and function level before writing `end`. The self level drops only while it is positive, so it never goes below zero. |
| LuaWriter.OpenThenEnd | LuaWriter.cs:124-164 | Any opener followed by `WriteEnd` restores the indentation and both counters, and `end` has the header's indentation. |
| LuaWriter.WriteClassNew | LuaWriter.cs:50-65 | The `new` factory leaves the indentation, block level and function level unchanged. It writes exactly its twelve lines: one `return obj;` and three `end` lines, each aligned with the header it closes. |
| LuaWriter.WriteClassEnd | CodeGen.cs:179-183 | After a class's members, the table is closed one level out and the output ends with `}` and, inside an enclosing table, a `,`. |
| LuaWriter.GetAncestorPath | LuaWriter.cs:66-79 | The path holds exactly the names of the enclosing classes. It is empty exactly when no class encloses the node. |
| LuaWriter.AncestorPathOuterFirst | LuaWriter.cs:66-79 | The path lists the outer classes before the inner ones, reversing the parent-first order of the ancestors. |
| LuaWriter.WriteTableSep | LuaWriter.cs:94-97 | Appends one indented `,` line. |
| LuaWriter.WriteSep | LuaWriter.cs:186-190 | Appends an indented `,` line if and only if the block level is positive; otherwise the writer is unchanged. |
| LuaWriter.WriteTableVariable | LuaWriter.cs:104-107 | Appends the table field `x = v,` at the current indentation. |
| LuaWriter.WriteVariable | LuaWriter.cs:109-112 | Appends `x = v;` at the current indentation. |
| LuaWriter.WriteFunctionVariable | LuaWriter.cs:114-117 | Appends `local x = v;` at the current indentation. |
| LuaWriter.WriteBinary | LuaWriter.cs:119-122 | Appends `l op r` on the current line, without indentation. |
| LuaWriter.WriteAssignment | LuaWriter.cs:166-169 | Appends the text as one indented line. |
| LuaWriter.WriteElse | LuaWriter.cs:171-174 | Appends `else` at the current indentation, without changing any level. |
| LuaWriter.WriteComment | LuaWriter.cs:176-179 | Appends `--text` at the current indentation. |
| LuaWriter.CallFunction | LuaWriter.cs:181-184 | Appends `name(a, b);` at the current indentation. |
| Strings.Spaces | LuaWriter.cs:20 | `new string(' ', n)` is exactly `n` blanks. |
| Strings.LastSegment | CodeGen.cs:52 | The last piece of `Split('.')` is the longest suffix free of the separator, and a separator precedes it when it is shorter than the text. |
| Strings.FirstSegment | CodeGen.cs:65 | The first piece of `Split('.')` is a prefix free of the separator, and a separator follows it when it is shorter than the text. |
| Strings.ConcatAppend | LuaWriter.cs:16 | The text of two runs of pieces is the text of the first followed by the text of the second. |
| Strings.ReplaceAllAbsent | Library/RobloxLibrary.cs:19 | `Replace` changes nothing when the pattern does not occur. |
| Strings.ReplaceAllLength | Library/RobloxLibrary.cs:19 | `Replace` with a replacement as long as the pattern keeps the length. |
| Libraries.ConsoleOnCall | Library/ConsoleLibrary.cs:15-26 | `Console.WriteLine` becomes `print`. Any other name comes back unchanged, because the failed lookup is caught. |
| Libraries.ConsoleOnCallIdempotent | Library/ConsoleLibrary.cs:15-26 | The Console hook applied twice gives the same name as applied once. |
| Libraries.RobloxOnCallIsReplace | Library/RobloxLibrary.cs:15-22 | The Roblox hook is the single replacement of `.GetChildren` by `:GetChildren`. |
| Libraries.ReplaceAllEveryOccurrence | Library/RobloxLibrary.cs:19 | When the pattern's first character does not recur in it, every occurrence in the input is replaced in the output. |
| Libraries.RobloxReplacesEveryOccurrence | Library/RobloxLibrary.cs:15-22 | Every `.GetChildren` in the name is `:GetChildren` at the same place in the answer. |
| Libraries.RobloxChangesOnlyDots | Library/RobloxLibrary.cs:15-22 | The Roblox hook keeps the length. The only characters it changes are the `.` of occurrences of `.GetChildren`, each of which becomes `:`. |
| Libraries.RobloxUnchangedWithout | Library/RobloxLibrary.cs:15-22 | A name without `.GetChildren` is returned unchanged. |
| Libraries.RobloxLeavesNoOccurrence | Library/RobloxLibrary.cs:15-22 | No `.GetChildren` survives the Roblox hook. |
| Libraries.RobloxOnCallIdempotent | Library/RobloxLibrary.cs:15-22 | The Roblox hook applied twice gives the same name as applied once. |
| Libraries.RobloxOnCallReachesWriteLineOnlyFromItself | Library/RobloxLibrary.cs:15-22 | The only name the Roblox hook turns into `Console.WriteLine` is `Console.WriteLine` itself. |
| Libraries.OnCall | Library/LibraryInterface.cs:17-20 | The interface default answers `nil` to every name; each shipped library answers with its own hook. |
| Libraries.Call | Library/LibraryInterface.cs:13-15 | The interface default writes nothing. Console and Roblox each append exactly one comment line naming the library. |
| Libraries.Use | Library/LibraryInterface.cs:7 | `InUse.Add` appends at the end, keeps everything before it and allows repeats. |
| Libraries.TranslateNameSnoc | SyntaxRewriter.cs:132 | A library added at the end of `InUse` is the last to rewrite a name. |
| Libraries.ShippedChain | SyntaxRewriter.cs:132 | Through any list of shipped libraries, `Console.WriteLine` becomes `print` when Console is in the list. Otherwise the name gets the Roblox replacement when Roblox is in the list, and is unchanged when neither applies. Repeats and order make no other difference. |
| Libraries.ShippedChainIdempotent | SyntaxRewriter.cs:132 | Folding a name twice through the same list of shipped libraries gives the name folded once. |
| Libraries.DotFreeNameKept | SyntaxRewriter.cs:132 | A name without `.` is folded through shipped libraries unchanged. |
| Libraries.CreationNameKept | SyntaxRewriter.cs:16 | `T.new`, for a plain identifier `T`, is folded through shipped libraries unchanged. |
| Libraries.Register | Library/LibraryInterface.cs:8 | `LibraryDict.Add` fails exactly when the key is present. Otherwise it adds that one key with the library and keeps every other entry. |
| CodeGen.GetMethodName | CodeGen.cs:17-45 | A plain name gives its identifier and a member access its whole text, with no output. Any other callee gives `nil` after one `This type isn't supported` comment naming its node type. |
| CodeGen.SubName | CodeGen.cs:52 | The sub-name has no `.` and no `(`. |
| CodeGen.SubNameOfDotted | CodeGen.cs:52 | The sub-name of `q.id` is `id`. |
| CodeGen.SubNameOfPlain | CodeGen.cs:52 | A plain identifier is its own sub-name. |
| CodeGen.QualifyCall | CodeGen.cs:52-53 | A callee whose sub-name is a recorded method becomes `path.sub`; any other callee is kept as written. |
| CodeGen.QualifyAssignment | CodeGen.cs:63-72 | The assignment text is prefixed by `path.` if and only if its text before the first `.` is a variable recorded outside any function. Otherwise it is kept verbatim. |
| CodeGen.LocalVariableNotQualified | CodeGen.cs:65-72 | A member assignment to a function-local variable is never qualified. |
| CodeGen.MemberAssignmentQualified | CodeGen.cs:65-72 | A member assignment `x.f = v` to a variable recorded outside functions is prefixed by the path of `x`'s class. |
| CodeGen.PlainAssignmentNotQualified | CodeGen.cs:63-72 | A plain `x = v` with no `.` is looked up by its whole text, which names no variable, so it is never qualified. |
| CodeGen.EmitCall | CodeGen.cs:46-57 | An invocation writes its (possibly qualified) call line if and only if it has leading trivia, after any comment from naming the callee. |
| CodeGen.CallStatementLine | CodeGen.cs:55-56 | A call statement with leading trivia writes its call line before anything else. |
| CodeGen.EmitAssignment | CodeGen.cs:61-74 | An assignment writes its qualified text as one line at the current indentation. |
| CodeGen.VisitExpr | CodeGen.cs:46-76 | Walking an expression only appends output. It keeps every level and both tables. |
| CodeGen.DeclarationLines | CodeGen.cs:142-153 | One line per declarator, in order: `local x = v;` inside a function, the table field `x = v,` outside. |
| CodeGen.DeclareVariables | CodeGen.cs:140-156 | A declaration without leading trivia writes and records nothing. Otherwise it succeeds if and only if the names are new and distinct. Each name is written as `local` inside a function and as a table field outside, one line each in order, and is recorded with the path and the current locality. |
| CodeGen.DeclareOne | CodeGen.cs:146-155 | One declarator is written as a local or as a table field by the function level, and is recorded. |
| CodeGen.VisitVariableDeclaration | CodeGen.cs:140-159 | A declaration only appends output and only adds variables. Without leading trivia it adds none. |
| CodeGen.VisitIf | CodeGen.cs:161-172 | The `if` header is the first line written and `end`, aligned with it, is the last. The levels are restored. |
| CodeGen.VisitWhile | CodeGen.cs:97-102 | The `while` header is the first line written and `end`, aligned with it, is the last. |
| CodeGen.VisitFor | CodeGen.cs:112-123 | The `for` header, made from the first declarator, its initializer and the right operand of the condition, comes first and the aligned `end` last. |
| CodeGen.VisitForEach | CodeGen.cs:103-111 | The `pairs` header comes first and the aligned `end` last. |
| CodeGen.VisitStmt | CodeGen.cs:97-172 | A statement only appends output, only adds variables, and restores the indentation and both counters. |
| CodeGen.CloseFunction | CodeGen.cs:85-87 | A function is closed by `end` aligned with its header, then the separator of the enclosing table. |
| CodeGen.VisitMethod | CodeGen.cs:78-95 | A method writes its header first and `end` plus separator last. An already-recorded name makes it fail. Otherwise its name is recorded with the class path, and the entry point is set exactly when it is named `Main` or `EntryPoint`. |
| CodeGen.SelfCallUnqualified | CodeGen.cs:83-94 | A method that calls itself writes that call unqualified, because its name is recorded only after its body. |
| CodeGen.VisitConstructor | CodeGen.cs:125-138 | A constructor is a function named `constructor` whose parameters are `self` followed by the declared ones. |
| CodeGen.CloseClass | CodeGen.cs:179-183 | A class table is closed one level out, ending with `}` and, inside a table, a `,`. |
| CodeGen.VisitMember | CodeGen.cs:174-184 | A member only appends output and only adds table entries. A class returns the indentation, block level and function level to their entry values. |
| CodeGen.VisitUnit | Program.cs:38 | The whole walk only appends, only adds entries and restores every level. A self level that starts at zero stays zero. |
| CodeGen.EntryPointIsLastEntry | CodeGen.cs:89-92 | Over sibling methods, the generator's entry point is the one a left-to-right scan of the entry methods leaves. |
| CodeGen.EntryPointLastWins | CodeGen.cs:89-92 | Among sibling methods, the last one named `Main` or `EntryPoint` sets the entry point to its path plus name. With none, the entry point is unchanged. |
| CodeGen.SiblingsFreshInTurn | CodeGen.cs:94 | A successful walk over sibling methods met each name when the table did not yet hold it. |
| CodeGen.SiblingMethodsFresh | CodeGen.cs:94 | When sibling methods are walked without failure, their names are pairwise distinct and none was recorded before. |
| CodeGen.SiblingsRecordAll | CodeGen.cs:94 | After sibling methods, the method table is the one obtained by recording their names in order. |
| CodeGen.RecordAllContents | CodeGen.cs:94 | Recording adds exactly the methods' names, each with the path, and keeps every other entry. |
| CodeGen.SiblingMethodsRecorded | CodeGen.cs:94 | After sibling methods, the table holds exactly the previous names plus theirs, and each of theirs maps to the path of the enclosing classes. |
| SyntaxRewriter.BinaryRule | SyntaxRewriter.cs:72-118 | A `+` with a string literal on the left is spelled `..`, and this check comes first. Then not-equal, logical-or and logical-and become `~=`, `or` and `and`. Any other node is returned as it was. The operands are the original ones and the token keeps its kind. |
| SyntaxRewriter.CastRule | SyntaxRewriter.cs:34-65 | `(int)x` and `(string)x` become `tonumber(x)` and `tostring(x)` on the original operand, without leading trivia. Other predefined casts are returned unchanged. A cast to a non-predefined type makes the rule throw, which `Program.Translate` models. |
| SyntaxRewriter.InvocationRule | SyntaxRewriter.cs:128-140 | The callee becomes a plain name: `GetMethodName`'s answer folded through `InUse` in order. The arguments are reused as they are, and the call has leading trivia if and only if the original did. |
| SyntaxRewriter.RewriteExpr | SyntaxRewriter.cs:11-140 | `new T(a)` becomes a call of `T.new` on the same arguments with no leading trivia, for the identifier type names on which the original does not throw. `this` becomes `self` with its trivia, and binary, cast and invocation nodes follow their rules. Member accesses, assignments and parenthesised expressions are rebuilt from their rewritten children, left before right, so `this.x = new Foo()` becomes `self.x = Foo.new()`. Names and literals are kept. The rewrite only appends comments to the output. |
| SyntaxRewriter.RewriteInitializer | SyntaxRewriter.cs:24-32 | An initializer whose value text is exactly `null` becomes `= nil`. Any other keeps its `=` token and has its value rewritten. |
| SyntaxRewriter.RewriteDeclaration | SyntaxRewriter.cs:24-32 | Declarators keep their names and order, each initializer stays present or absent, and each present initializer is the initializer rule's result, so a declarator `x = null` comes out as `x = nil`. |
| SyntaxRewriter.RewriteStmt | SyntaxRewriter.cs:9 | The default rewrite of a statement only appends output and keeps a well-formed statement well-formed for the code generator. |
| SyntaxRewriter.RewriteUnit | Program.cs:33-34 | The usings are kept, the members rewritten, and the output only grows. |
| SyntaxRewriter.RewritableIsPlain | SyntaxRewriter.cs:13-14 | A `new` that the object-creation rule accepts without throwing names its type without a dot. |
| SyntaxRewriter.RewritableInitializersArePlain | SyntaxRewriter.cs:24-32 | The same for the initial values the initializer rule visits; a value written `null` contains no `new`. |
| SyntaxRewriter.RewritableStmtIsPlain | SyntaxRewriter.cs:13-14 | The same for every expression the rewrite of a statement reaches. |
| SyntaxRewriter.RewritableMemberIsPlain | SyntaxRewriter.cs:13-14 | The same for every expression the rewrite of a member reaches. |
| SyntaxRewriter.SupportedCalleesNoComments | CodeGen.cs:20-36 | Naming plain names and member accesses writes nothing. |
| SyntaxRewriter.RewriteExprComments | SyntaxRewriter.cs:69-130 | All that the rewrite of an expression writes is one comment per unsupported callee it reaches, in order. The operands of a binary node are reached even though their rewrites are dropped. |
| SyntaxRewriter.BinaryComments | SyntaxRewriter.cs:69-70 | A binary node writes its left operand's comments, then its right operand's. |
| SyntaxRewriter.BinaryRuleIdempotent | SyntaxRewriter.cs:78-112 | The replacement tokens keep their kinds, so applying the binary rule twice is applying it once. |
| SyntaxRewriter.InvocationRuleIdempotent | SyntaxRewriter.cs:128-140 | With shipped libraries in use, rewriting a rewritten call again changes nothing. |
| SyntaxRewriter.RewriteExprNode | SyntaxRewriter.cs:130 | The rewritten tree does not depend on what the writer already holds. |
| SyntaxRewriter.RewriteInitializerNode | SyntaxRewriter.cs:24-32 | Neither does a rewritten initializer. |
| SyntaxRewriter.RewriteExprIdempotent | SyntaxRewriter.cs:11-140 | With shipped libraries in use and plain type names after `new`, normalising an expression twice gives the same tree as once. |
| SyntaxRewriter.RewrittenNotNull | SyntaxRewriter.cs:26 | Only a value written `null` is rewritten into a value written `null`. |
| SyntaxRewriter.RewriteInitializerIdempotent | SyntaxRewriter.cs:24-32 | Normalising an initializer twice gives the same initializer as once; `nil` is not `null`. |
| SyntaxRewriter.RewriteStmtIdempotent | SyntaxRewriter.cs:9 | Normalising a statement twice gives the same statement as once. |
| SyntaxRewriter.RewriteUnitIdempotent | Program.cs:33-34 | Normalising a whole unit twice gives the same tree as once. |
| Program.RegistrySetUp | Program.cs:17-18 | Registering Console and then Roblox cannot fail, and the registry then holds exactly those two. |
| Program.ActivateOne | Program.cs:22-30 | A registered `using` runs the library's `Call` and appends the library to `InUse`. An unknown one writes exactly `--Unable to use library.` and leaves `InUse` alone. |
| Program.Activate | Program.cs:20-31 | The activation loop only appends output and keeps every level. |
| Program.ActivateInUse | Program.cs:20-31 | `InUse` grows by exactly the named libraries, in the order of the directives, repeats included. |
| Program.ActivateShipped | Program.cs:17-25 | With the shipped registry, every library in use is a shipped one. |
| Program.ActivateLines | Program.cs:20-31 | With the shipped registry, each directive writes exactly one comment line, in the order of the directives. |
| Program.EntryLine | Program.cs:40 | The last line is the entry point followed by `();`. With no entry method it is just `();`. |
| Program.Translate | Program.cs:17-40 | A run fails with `UnsupportedType` exactly when the normaliser reaches a `new` whose type is not an identifier or a cast whose type is not predefined, because `sr.Visit(root)` throws there. A translation starts with the activation comments, because normalising and code generation run after the loop. Otherwise it fails exactly when the code generator fails on the normalised tree; otherwise the output is the generator's output followed by the call of the entry point the generator last recorded. |
| Program.UserTypeCastFails | SyntaxRewriter.cs:34-38 | A unit that casts to a user type, `var y = (Foo)x;`, makes the run fail with `UnsupportedType`. |
| Program.EmptyUnit | Program.cs:40 | An empty unit translates to the single line `();`. |
| Program.NormalisedTreeIsNormalForm | Program.cs:33-38 | The tree given to the code generator is unchanged by another normalisation. |
| Program.TranslatedTreeIsNormalForm | Program.cs:33-38 | That holds on every unit the normaliser does not throw on. |

## Left out

- Reading the source file, parsing it, printing the result and waiting for a key (Program.cs:12-15, 42, 44) are I/O. The model starts from the parsed `CompilationUnit` and ends with the writer's pieces.
- Roslyn is not modelled. A node's `ToString()` is a canonical rendering (`Syntax.ToText`: one blank around binary and assignment operators, `, ` between arguments). Trivia is one flag: does the node's first token carry leading trivia? Identifiers built by the rules count as having trivia, as the factory's elastic markers do, unless `WithoutLeadingTrivia` removes it.
- Expressions and statements the translator has no rule for are `OtherExpression` and `OtherStatement`. The model does not walk into them, while Roslyn's default visitors do. Parameter types, defaults and attributes are not modelled either; parameters are their names.
- Members are limited to namespaces, classes, methods, constructors and fields (`Syntax.Member`). Property and indexer accessors are not representable, although the code generator walks into their bodies and writes call and assignment lines at table level.
- Struct, interface, enum and record declarations are not representable. `GetAncestorPath` matches only class declarations (LuaWriter.cs:66-79), so a method inside a struct would get a path without the struct's name; the model cannot show that.
- Expression-bodied methods and constructors (`void M() => x = 1;`) are not representable: a body is a `Syntax.Stmt`. The original's walker visits the arrow expression and writes its call or assignment line.
- Constructor initializers (`: base(..)`, `: this(..)`) are not representable; both visitors walk their arguments in the original.
- LuaWriter.NewLine: the model takes the line terminator to be a line feed, the same character as the literal `",\n"` that `WriteTableSep` appends (LuaWriter.cs:96). `AppendLine` adds `Environment.NewLine`, which is `"\r\n"` on Windows, the platform the original's backslash path (Program.cs:12) targets; there the table separator's line ending differs from every other line's, and the model does not show that.
- A `for` without a declarator or initializer, or with a non-binary condition, crashes the code generator; it is excluded by `WellFormedStmt`, a precondition of the walker and of `Program.Translate`, instead of being modelled as an exception. A `new` whose type is not an identifier (qualified, generic, array, nullable, tuple or predefined, as in `new A.B()`, `new List<int>()` or `new int()`) and a cast to a type that is not predefined (as in `(Foo)x`, where SyntaxRewriter.cs:36-38 dereferences a failed `as PredefinedTypeSyntax`) are modelled at the level of the run: `Program.Translate` fails with `UnsupportedType` exactly when `SyntaxRewriter.RewritableUnit` rejects the unit. A cast target is the `Syntax.PredefinedType` datatype, whose `OtherKeyword` carries the keyword as text; `SyntaxRewriter.PredefinedCastTarget` accepts it only for a predefined keyword other than `int` and `string`. The idempotence lemmas require the weaker `PlainCreations`, which only rules out a dot.
- SyntaxRewriter.RewriteExpr: returns a tree even for a `new` whose type is not an identifier or a cast whose type is not predefined, where the object-creation and cast rules throw (SyntaxRewriter.cs:13-14, 36-38). The crash is modelled once, by `Program.Translate`, instead of threading a failure through every rewrite function.
- SyntaxRewriter.RewriteUnit: returns a tree even for a unit that `SyntaxRewriter.RewritableUnit` rejects, where `sr.Visit(root)` throws (Program.cs:34). `Program.Translate` turns exactly those units into the `UnsupportedType` failure.
- Object initializers (`new A(1) { X = 2 }`, `new A { X = 2 }`) cannot be represented in `Syntax.ObjectCreation`. The original passes only `node.ArgumentList` on (SyntaxRewriter.cs:18), so it drops the initializer, and without parentheses that list is null.
- SyntaxRewriter.RewriteExprIdempotent: stated for the shipped libraries only. With the interface default in use, every callee becomes `nil`, and the statement would need a separate case.
- Runtime behaviour of the emitted Lua (`setmetatable`, `pairs`, `tonumber`) is out of scope. Only the text is modelled.
- LuaWriter.WriteR: requires at least one level of indentation. LuaWriter.WriteEnd and LuaWriter.WriteClassEnd do the same. In the original, `new string(' ', n)` throws on a negative width; every caller in the model closes only what it opened.
- Program.Translate: states the activation prefix and the output in terms of the code generator's result, not the generated text itself; `CodeGen.EntryPointLastWins` and the walker's contracts describe that text separately.
- CodeGen.VisitStmt: states only the walk invariants (append-only, levels restored, tables extended). The lines written are characterised for calls, assignments, declarations and the first and last lines of each scope, not for every statement kind.
- CodeGen.VisitMember: states the walk invariants and, for methods and classes, the first and last lines. It does not give the full text of a class.
- CodeGen.EntryPointLastWins: stated for a run of sibling methods. Nested classes reach the same update through `CodeGen.VisitMethod`'s contract.
- LuaWriter.WriteClassEnd: states the tail of the output (`}` and the separator), the levels and the prefix. The factory lines are given by `LuaWriter.WriteClassNew`.
- SyntaxRewriter.RewriteStmt: states that the output only grows and that well-formedness is kept, not the rewritten shape. The shape is pinned down by the expression rules and by `SyntaxRewriter.RewriteStmtIdempotent`.
- Libraries.ConsoleOnCall: a `null` name, which the dictionary lookup rejects and the `catch` absorbs, does not arise in the model, because names are strings.

=== FILE: code_gen.dfy ===
/** The tree walker: visits the normalised tree depth first, writes Lua text
    through the writer and keeps two tables, method name -> dotted class path
    and variable name -> (dotted class path, declared inside a function), used
    to qualify calls and assignments. `Dictionary.Add` on a name already
    present throws in the original; here the walk fails with a `GenError`. */
module CodeGen {
  import opened Wrappers
  import opened Strings
  import opened Syntax
  import opened LuaWriter

  datatype VariableInfo = VariableInfo(path: string, isFunctionLocal: bool)

  datatype GenState = GenState(
    w: Writer,
    methods: map<string, string>,
    variables: map<string, VariableInfo>,
    entryPoint: Option<string>)

  datatype GenError = DuplicateMethod(name: string) | DuplicateVariable(name: string)

  /** A fresh walker writing after whatever `w` already holds. */
  function Begin(w: Writer): GenState
  {
    GenState(w, map[], map[], None)
  }

  /** Every entry of `a` is in `b` with the same value. */
  predicate Extends<K, V(==)>(a: map<K, V>, b: map<K, V>)
  {
    forall k <- a.Keys :: k in b && b[k] == a[k]
  }

  /** `b` follows `a` in one run of the writer: same levels, only appended,
      and a non-negative self level can only go down and stays non-negative. */
  predicate WriterWalk(a: Writer, b: Writer)
  {
    && SameLevels(a, b)
    && a.out <= b.out
    && (0 <= a.selfLevel ==> 0 <= b.selfLevel <= a.selfLevel)
  }

  /** What visiting an expression may change: only the output. */
  predicate ExprWalk(a: GenState, b: GenState)
  {
    && b.methods == a.methods && b.variables == a.variables && b.entryPoint == a.entryPoint
    && SameLevels(a.w, b.w) && a.w.out <= b.w.out && b.w.selfLevel == a.w.selfLevel
  }

  /** What visiting a statement may change: the output and new variables. */
  predicate StmtWalk(a: GenState, b: GenState)
  {
    && b.methods == a.methods && b.entryPoint == a.entryPoint
    && Extends(a.variables, b.variables)
    && WriterWalk(a.w, b.w)
  }

  /** What visiting a member may change: output, new methods and variables, the entry point. */
  predicate MemberWalk(a: GenState, b: GenState)
  {
    && Extends(a.methods, b.methods)
    && Extends(a.variables, b.variables)
    && WriterWalk(a.w, b.w)
  }

  // ---------------------------------------------------------------------
  // Names

  /** `GetMethodName`'s answer, with the writer after it. */
  datatype Named = Named(name: string, w: Writer)

  /** The comment left for a callee that is neither a name nor a member access. */
  function UnsupportedComment(callee: Expr): string
  {
    "This type isn't supported. '" + KindName(callee) + "'"
  }

  /** The identifier of a plain name, the whole text of a member access, and
      otherwise `"nil"` after a comment naming the unsupported node type. */
  function GetMethodName(callee: Expr, w: Writer): (r: Named)
    ensures callee.IdentifierName? ==> r == Named(callee.identifier, w)
    ensures callee.MemberAccess? ==> r == Named(ToText(callee), w)
    ensures !callee.IdentifierName? && !callee.MemberAccess? ==>
      && r.name == "nil"
      && r.w.out == w.out + [Line(w.indent, "--" + UnsupportedComment(callee))]
    ensures SameLevels(w, r.w) && r.w.selfLevel == w.selfLevel && w.out <= r.w.out
  {
    match callee
    case IdentifierName(id, _) => Named(id, w)
    case MemberAccess(_, _) => Named(ToText(callee), w)
    case _ => Named("nil", WriteComment(w, UnsupportedComment(callee)))
  }

  /** `name.Split('.').Last().Split('(').First()`: the last dotted segment,
      cut at its first parenthesis. */
  function SubName(name: string): (r: string)
    ensures '.' !in r && '(' !in r
  {
    FirstSegment(LastSegment(name, '.'), '(')
  }

  /** A dotted name's sub-name is its last segment. */
  lemma SubNameOfDotted(qualifier: string, id: string)
    requires '.' !in id && '(' !in id
    ensures SubName(qualifier + "." + id) == id
  {
    var s := qualifier + "." + id;
    var last := LastSegment(s, '.');
    assert s[|s| - |id| - 1] == '.';
    if |last| < |id| {
      assert false;
    } else if |last| > |id| {
      assert false;
    }
    assert last == id;
    FirstSegmentWhole(id, '(');
  }

  /** A plain name is its own sub-name. */
  lemma SubNameOfPlain(id: string)
    requires '.' !in id && '(' !in id
    ensures SubName(id) == id
  {
    LastSegmentWhole(id, '.');
    FirstSegmentWhole(id, '(');
  }

  /** Without a separator the last segment is the whole text. */
  lemma LastSegmentWhole(s: string, c: char)
    requires c !in s
    ensures LastSegment(s, c) == s
  {
    assert forall i | 0 <= i < |s| :: s[i] != c;
    assert s[0..] == s;
  }

  /** Without a separator the first segment is the whole text. */
  lemma FirstSegmentWhole(s: string, c: char)
    requires c !in s
    ensures FirstSegment(s, c) == s
  {
    assert forall i | 0 <= i < |s| :: s[i] != c;
  }

  /** The callee as written: `path.sub` when the sub-name is a recorded method,
      the name unchanged otherwise. */
  function QualifyCall(methods: map<string, string>, name: string): (r: string)
    ensures SubName(name) in methods ==> r == methods[SubName(name)] + "." + SubName(name)
    ensures SubName(name) !in methods ==> r == name
  {
    var sub := SubName(name);
    if sub in methods then methods[sub] + "." + sub else name
  }

  /** The assignment text, prefixed by `path.` exactly when its text before the
      first `.` names a variable recorded outside any function. */
  function QualifyAssignment(variables: map<string, VariableInfo>, text: string): (r: string)
    ensures r == text || (FirstSegment(text, '.') in variables && r == variables[FirstSegment(text, '.')].path + "." + text)
    ensures r != text <==>
      FirstSegment(text, '.') in variables && !variables[FirstSegment(text, '.')].isFunctionLocal
  {
    var sub := FirstSegment(text, '.');
    if sub in variables && !variables[sub].isFunctionLocal then variables[sub].path + "." + text else text
  }

  /** A function-local variable is never qualified. */
  lemma LocalVariableNotQualified(variables: map<string, VariableInfo>, name: string, rest: string)
    requires '.' !in name && name in variables && variables[name].isFunctionLocal
    ensures QualifyAssignment(variables, name + "." + rest) == name + "." + rest
  {
    FirstSegmentOfDotted(name, rest);
  }

  /** A member assignment `x.f = v` to a variable `x` recorded outside any
      function is prefixed by the path of its class. */
  lemma MemberAssignmentQualified(variables: map<string, VariableInfo>, name: string, rest: string)
    requires '.' !in name && name in variables && !variables[name].isFunctionLocal
    ensures QualifyAssignment(variables, name + "." + rest) == variables[name].path + "." + name + "." + rest
  {
    FirstSegmentOfDotted(name, rest);
  }

  /** A plain assignment `x = v` with no `.` in its text is looked up by its
      whole text, which is no variable name: it is never qualified. */
  lemma PlainAssignmentNotQualified(variables: map<string, VariableInfo>, name: string, op: string, value: string)
    requires '.' !in name + " " + op + " " + value
    requires forall k <- variables.Keys :: ' ' !in k
    ensures QualifyAssignment(variables, name + " " + op + " " + value) == name + " " + op + " " + value
  {
    var text := name + " " + op + " " + value;
    FirstSegmentWhole(text, '.');
    assert text[|name|] == ' ';
  }

  lemma {:induction false} FirstSegmentOfDotted(name: string, rest: string)
    requires '.' !in name
    ensures FirstSegment(name + "." + rest, '.') == name
  {
    if |name| > 0 {
      assert (name + "." + rest)[1..] == name[1..] + "." + rest;
      FirstSegmentOfDotted(name[1..], rest);
    }
  }

  // ---------------------------------------------------------------------
  // Expressions

  /** The text of a declarator's initial value; empty without an initializer
      (`v.Initializer?.Value.ToString()` interpolated). */
  function InitialValueText(v: Declarator): string
  {
    if v.initializer.Some? then ToText(v.initializer.value.value) else ""
  }

  /** What an invocation itself writes, before its children are visited:
      the callee is named, qualified, and a call line is written exactly when
      the invocation has leading trivia. */
  function EmitCall(e: Expr, st: GenState): (r: GenState)
    requires e.Invocation?
    ensures ExprWalk(st, r)
    ensures var named := GetMethodName(e.callee, st.w);
      && named.w.out <= r.w.out
      && (HasLeadingTrivia(e) ==>
            r.w.out == named.w.out + [Line(st.w.indent, QualifyCall(st.methods, named.name) + "(" + Join(ArgumentTexts(e.arguments), ", ") + ");")])
      && (!HasLeadingTrivia(e) ==> r.w == named.w)
  {
    var named := GetMethodName(e.callee, st.w);
    var name := QualifyCall(st.methods, named.name);
    var w := if HasLeadingTrivia(e) then CallFunction(named.w, name, ArgumentTexts(e.arguments)) else named.w;
    st.(w := w)
  }

  /** What an assignment itself writes: its (possibly qualified) text on one line. */
  function EmitAssignment(e: Expr, st: GenState): (r: GenState)
    requires e.Assignment?
    ensures ExprWalk(st, r)
    ensures r.w.out == st.w.out + [Line(st.w.indent, QualifyAssignment(st.variables, ToText(e)))]
  {
    st.(w := WriteAssignment(st.w, QualifyAssignment(st.variables, ToText(e))))
  }

  /** The default walk into children, with the two expression overrides. */
  function VisitExpr(e: Expr, st: GenState): (r: GenState)
    ensures ExprWalk(st, r)
    decreases e
  {
    match e
    case Invocation(callee, args) => VisitExprs(args, VisitExpr(callee, EmitCall(e, st)))
    case Assignment(l, _, v) => VisitExpr(v, VisitExpr(l, EmitAssignment(e, st)))
    case MemberAccess(target, _) => VisitExpr(target, st)
    case Binary(l, _, r) => VisitExpr(r, VisitExpr(l, st))
    case Cast(_, x, _) => VisitExpr(x, st)
    case ObjectCreation(_, args, _) => VisitExprs(args, st)
    case Parenthesized(x, _) => VisitExpr(x, st)
    case IdentifierName(_, _) => st
    case Literal(_, _, _) => st
    case This(_, _) => st
    case OtherExpression(_, _, _) => st
  }

  function VisitExprs(es: seq<Expr>, st: GenState): (r: GenState)
    ensures ExprWalk(st, r)
    decreases es
  {
    if |es| == 0 then st else VisitExprs(es[1..], VisitExpr(es[0], st))
  }

  // ---------------------------------------------------------------------
  // Variable declarations

  /** Names pairwise distinct and none already recorded: `Add` succeeds for each. */
  predicate FreshNames(vars: seq<Declarator>, recorded: map<string, VariableInfo>)
  {
    && (forall i | 0 <= i < |vars| :: vars[i].name !in recorded)
    && (forall i, j | 0 <= i < j < |vars| :: vars[i].name != vars[j].name)
  }

  function Names(vars: seq<Declarator>): (r: set<string>)
    ensures forall i | 0 <= i < |vars| :: vars[i].name in r
    ensures forall n <- r :: exists i | 0 <= i < |vars| :: vars[i].name == n
  {
    set i | 0 <= i < |vars| :: vars[i].name
  }

  /** The line one declarator becomes: `local x = v;` inside a function,
      the table field `x = v,` outside. */
  function DeclarationLine(v: Declarator, indent: nat, local: bool): string
  {
    if local then Line(indent, "local " + v.name + " = " + InitialValueText(v) + ";")
    else Line(indent, v.name + " = " + InitialValueText(v) + ",")
  }

  /** One line per declarator, in order. */
  function DeclarationLines(vars: seq<Declarator>, indent: nat, local: bool): (r: seq<string>)
    ensures |r| == |vars|
    ensures forall i | 0 <= i < |vars| :: r[i] == DeclarationLine(vars[i], indent, local)
  {
    if |vars| == 0 then [] else [DeclarationLine(vars[0], indent, local)] + DeclarationLines(vars[1..], indent, local)
  }

  /** The loop of `VisitVariableDeclaration`: without leading trivia it stops
      at once; otherwise each variable is written and recorded with the path
      and the current locality. */
  function DeclareVariables(vars: seq<Declarator>, leading: bool, st: GenState, path: string): (r: Result<GenState, GenError>)
    ensures !leading ==> r == Success(st)
    ensures leading ==> (r.Success? <==> FreshNames(vars, st.variables))
    ensures r.Success? ==> StmtWalk(st, r.value) && r.value.w.selfLevel == st.w.selfLevel
    ensures leading && r.Success? ==>
      && r.value.w.out == st.w.out + DeclarationLines(vars, st.w.indent, InsideFunction(st.w))
      && r.value.variables.Keys == st.variables.Keys + Names(vars)
      && forall i | 0 <= i < |vars| :: r.value.variables[vars[i].name] == VariableInfo(path, InsideFunction(st.w))
    decreases vars
  {
    if !leading || |vars| == 0 then Success(st)
    else if vars[0].name in st.variables then Failure(DuplicateVariable(vars[0].name))
    else
      var next := DeclareOne(vars[0], st, path);
      var r := DeclareVariables(vars[1..], leading, next, path);
      DeclareStep(vars, st, path, next, r);
      r
  }

  /** One declarator written and recorded. */
  function DeclareOne(v: Declarator, st: GenState, path: string): (r: GenState)
    ensures r.methods == st.methods && r.entryPoint == st.entryPoint
    ensures SameLevels(st.w, r.w) && r.w.selfLevel == st.w.selfLevel
    ensures r.w.out == st.w.out + [DeclarationLine(v, st.w.indent, InsideFunction(st.w))]
    ensures r.variables == st.variables[v.name := VariableInfo(path, InsideFunction(st.w))]
  {
    var local := InsideFunction(st.w);
    var w := if local then WriteFunctionVariable(st.w, v.name, InitialValueText(v))
             else WriteTableVariable(st.w, v.name, InitialValueText(v));
    GenState(w, st.methods, st.variables[v.name := VariableInfo(path, local)], st.entryPoint)
  }

  /** The inductive step of `DeclareVariables`' contract. */
  lemma DeclareStep(vars: seq<Declarator>, st: GenState, path: string, next: GenState, r: Result<GenState, GenError>)
    requires |vars| > 0 && vars[0].name !in st.variables
    requires next == DeclareOne(vars[0], st, path)
    requires r.Success? <==> FreshNames(vars[1..], next.variables)
    requires r.Success? ==>
      && StmtWalk(next, r.value) && r.value.w.selfLevel == next.w.selfLevel
      && r.value.w.out == next.w.out + DeclarationLines(vars[1..], next.w.indent, InsideFunction(next.w))
      && r.value.variables.Keys == next.variables.Keys + Names(vars[1..])
      && forall i | 0 <= i < |vars[1..]| :: r.value.variables[vars[1..][i].name] == VariableInfo(path, InsideFunction(next.w))
    ensures r.Success? <==> FreshNames(vars, st.variables)
    ensures r.Success? ==>
      && StmtWalk(st, r.value) && r.value.w.selfLevel == st.w.selfLevel
      && r.value.w.out == st.w.out + DeclarationLines(vars, st.w.indent, InsideFunction(st.w))
      && r.value.variables.Keys == st.variables.Keys + Names(vars)
      && forall i | 0 <= i < |vars| :: r.value.variables[vars[i].name] == VariableInfo(path, InsideFunction(st.w))
  {
    FreshNamesCons(vars, st.variables, VariableInfo(path, InsideFunction(st.w)));
    if r.Success? {
      assert r.value.variables.Keys == st.variables.Keys + Names(vars) by { NamesCons(vars); }
      assert r.value.w.out == st.w.out + DeclarationLines(vars, st.w.indent, InsideFunction(st.w)) by {
        LinesCons(vars, st.w.out, st.w.indent, InsideFunction(st.w));
      }
      forall i | 0 <= i < |vars| ensures r.value.variables[vars[i].name] == VariableInfo(path, InsideFunction(st.w)) {
        if i > 0 { assert vars[i] == vars[1..][i - 1]; }
      }
    }
  }

  lemma FreshNamesCons(vars: seq<Declarator>, recorded: map<string, VariableInfo>, info: VariableInfo)
    requires |vars| > 0
    ensures FreshNames(vars, recorded) <==> vars[0].name !in recorded && FreshNames(vars[1..], recorded[vars[0].name := info])
  {
    var next := recorded[vars[0].name := info];
    if FreshNames(vars, recorded) {
      forall i | 0 <= i < |vars[1..]| ensures vars[1..][i].name !in next {
        assert vars[1..][i] == vars[i + 1];
      }
      forall i, j | 0 <= i < j < |vars[1..]| ensures vars[1..][i].name != vars[1..][j].name {
        assert vars[1..][i] == vars[i + 1] && vars[1..][j] == vars[j + 1];
      }
    }
    if vars[0].name !in recorded && FreshNames(vars[1..], next) {
      forall i | 0 <= i < |vars| ensures vars[i].name !in recorded {
        if i > 0 { assert vars[i] == vars[1..][i - 1]; }
      }
      forall i, j | 0 <= i < j < |vars| ensures vars[i].name != vars[j].name {
        assert vars[j] == vars[1..][j - 1];
        if i > 0 { assert vars[i] == vars[1..][i - 1]; }
      }
    }
  }

  lemma LinesCons(vars: seq<Declarator>, out: seq<string>, indent: nat, local: bool)
    requires |vars| > 0
    ensures out + DeclarationLines(vars, indent, local)
         == (out + [DeclarationLine(vars[0], indent, local)]) + DeclarationLines(vars[1..], indent, local)
  {
  }

  lemma NamesCons(vars: seq<Declarator>)
    requires |vars| > 0
    ensures Names(vars) == {vars[0].name} + Names(vars[1..])
  {
    forall n | n in Names(vars[1..]) ensures n in Names(vars) {
      var i :| 0 <= i < |vars[1..]| && vars[1..][i].name == n;
      assert vars[i + 1].name == n;
    }
    forall n | n in Names(vars) ensures n in {vars[0].name} + Names(vars[1..]) {
      var i :| 0 <= i < |vars| && vars[i].name == n;
      if i > 0 { assert vars[1..][i - 1].name == n; }
    }
  }

  /** The default walk into the initial values. */
  function VisitInitializers(vars: seq<Declarator>, st: GenState): (r: GenState)
    ensures ExprWalk(st, r)
    decreases vars
  {
    if |vars| == 0 then st
    else
      var next := if vars[0].initializer.Some? then VisitExpr(vars[0].initializer.value.value, st) else st;
      VisitInitializers(vars[1..], next)
  }

  function VisitVariableDeclaration(d: VariableDeclaration, st: GenState, ancestors: seq<Ancestor>): (r: Result<GenState, GenError>)
    ensures r.Success? ==> StmtWalk(st, r.value) && r.value.w.selfLevel == st.w.selfLevel
    ensures !d.leading ==> r.Success? && r.value.variables == st.variables
  {
    var declared :- DeclareVariables(d.variables, d.leading, st, PathText(ancestors));
    Success(VisitInitializers(d.variables, declared))
  }

  // ---------------------------------------------------------------------
  // Statements

  /** `o`'s header is the first line written after `a` and its `end`, aligned
      with the header, the last line of `b`. */
  predicate ScopeText(a: Writer, b: Writer, o: Opener)
  {
    a.out + [Line(a.indent, HeaderText(o))] <= b.out && EndsWith(b.out, [Line(a.indent, "end")])
  }

  /** Closes the scope `o` that was opened on `before`'s writer and whose body
      left the walker in `inner`. */
  function CloseScope(before: GenState, o: Opener, inner: GenState): (r: GenState)
    requires StmtWalk(before.(w := WriteOpen(before.w, o)), inner)
    ensures StmtWalk(before, r)
    ensures ScopeText(before.w, r.w, o)
  {
    inner.(w := WriteEnd(inner.w))
  }

  function VisitStmt(s: Stmt, st: GenState, ancestors: seq<Ancestor>): (r: Result<GenState, GenError>)
    requires WellFormedStmt(s)
    ensures r.Success? ==> StmtWalk(st, r.value)
    decreases s, 1
  {
    match s
    case ExpressionStatement(e) => Success(VisitExpr(e, st))
    case LocalDeclaration(d) => VisitVariableDeclaration(d, st, ancestors)
    case Block(ss) => VisitStmts(ss, st, ancestors)
    case If(_, _, _) => VisitIf(s, st, ancestors)
    case While(_, _) => VisitWhile(s, st, ancestors)
    case For(_, _, _, _) => VisitFor(s, st, ancestors)
    case ForEach(_, _, _, _) => VisitForEach(s, st, ancestors)
    case Return(value) => Success(if value.Some? then VisitExpr(value.value, st) else st)
    case OtherStatement(_) => Success(st)
  }

  /** `if c then`, the then-branch, `else` and the else-branch when there is
      one, `end`. The condition itself is not visited. */
  function VisitIf(s: Stmt, st: GenState, ancestors: seq<Ancestor>): (r: Result<GenState, GenError>)
    requires s.If? && WellFormedStmt(s)
    ensures r.Success? ==> StmtWalk(st, r.value) && ScopeText(st.w, r.value.w, IfHeader(ToText(s.condition)))
    decreases s, 0
  {
    var header := IfHeader(ToText(s.condition));
    var afterThen :- VisitStmt(s.thenBranch, st.(w := WriteOpen(st.w, header)), ancestors);
    var afterElse :- if s.elseBranch.Some? then VisitStmt(s.elseBranch.value, afterThen.(w := WriteElse(afterThen.w)), ancestors)
                     else Success(afterThen);
    Success(CloseScope(st, header, afterElse))
  }

  /** `while c do`, the condition's own walk, the body, `end`. */
  function VisitWhile(s: Stmt, st: GenState, ancestors: seq<Ancestor>): (r: Result<GenState, GenError>)
    requires s.While? && WellFormedStmt(s)
    ensures r.Success? ==> StmtWalk(st, r.value) && ScopeText(st.w, r.value.w, WhileHeader(ToText(s.condition)))
    decreases s, 0
  {
    var header := WhileHeader(ToText(s.condition));
    var afterBody :- VisitStmt(s.body, VisitExpr(s.condition, st.(w := WriteOpen(st.w, header))), ancestors);
    Success(CloseScope(st, header, afterBody))
  }

  /** `for i = start, bound do` from the first declared variable, its
      initializer (with its `=`) and the right operand of the condition; then
      the declaration, condition and incrementors are walked, the body, `end`. */
  function VisitFor(s: Stmt, st: GenState, ancestors: seq<Ancestor>): (r: Result<GenState, GenError>)
    requires s.For? && WellFormedStmt(s)
    ensures r.Success? ==> StmtWalk(st, r.value) && ScopeText(st.w, r.value.w, ForLoopHeader(s))
    decreases s, 0
  {
    var header := ForLoopHeader(s);
    var declared :- VisitVariableDeclaration(s.declaration, st.(w := WriteOpen(st.w, header)), ancestors);
    var headed := VisitExprs(s.incrementors, VisitExpr(s.condition, declared));
    var afterBody :- VisitStmt(s.body, headed, ancestors);
    Success(CloseScope(st, header, afterBody))
  }

  function ForLoopHeader(s: Stmt): Opener
    requires s.For? && ForShape(s.declaration, s.condition)
  {
    var counter := s.declaration.variables[0];
    ForHeader(counter.name, InitializerText(counter.initializer.value), ToText(s.condition.right))
  }

  /** `for x_index,x in pairs(c) do`, the collection's own walk, the body, `end`. */
  function VisitForEach(s: Stmt, st: GenState, ancestors: seq<Ancestor>): (r: Result<GenState, GenError>)
    requires s.ForEach? && WellFormedStmt(s)
    ensures r.Success? ==> StmtWalk(st, r.value) && ScopeText(st.w, r.value.w, ForPairsHeader(s.identifier, ToText(s.collection)))
    decreases s, 0
  {
    var header := ForPairsHeader(s.identifier, ToText(s.collection));
    var afterBody :- VisitStmt(s.body, VisitExpr(s.collection, st.(w := WriteOpen(st.w, header))), ancestors);
    Success(CloseScope(st, header, afterBody))
  }

  function VisitStmts(ss: seq<Stmt>, st: GenState, ancestors: seq<Ancestor>): (r: Result<GenState, GenError>)
    requires forall i | 0 <= i < |ss| :: WellFormedStmt(ss[i])
    ensures r.Success? ==> StmtWalk(st, r.value)
    decreases ss, 2
  {
    if |ss| == 0 then Success(st)
    else
      var first :- VisitStmt(ss[0], st, ancestors);
      VisitStmts(ss[1..], first, ancestors)
  }

  // ---------------------------------------------------------------------
  // Members

  predicate IsEntryName(name: string)
  {
    name == "Main" || name == "EntryPoint"
  }

  /** The `,` that follows a member written inside a class table. */
  function Separator(w: Writer): seq<string>
  {
    if InsideBlock(w) then [Line(w.indent, ",")] else []
  }

  /** Closes the function `o` opened on `before`'s writer: `end` aligned with
      the header, then the separator of the enclosing table. */
  function CloseFunction(before: GenState, o: Opener, inner: GenState): (r: GenState)
    requires StmtWalk(before.(w := WriteOpen(before.w, o)), inner)
    ensures StmtWalk(before, r)
    ensures before.w.out + [Line(before.w.indent, HeaderText(o))] <= r.w.out
    ensures EndsWith(r.w.out, [Line(before.w.indent, "end")] + Separator(before.w))
  {
    var ended := WriteEnd(inner.w);
    assert EndsWith(WriteSep(ended).out, [Line(before.w.indent, "end")] + Separator(before.w)) by {
      assert WriteSep(ended).out == inner.w.out + ([Line(before.w.indent, "end")] + Separator(before.w));
    }
    inner.(w := WriteSep(ended))
  }

  /** A method: its function header, the body, `end` aligned with the header
      and a separator inside a table; the name enters `methods` only after
      the body, and a name already recorded makes the walk fail. */
  function VisitMethod(name: string, parameters: seq<string>, body: Stmt, st: GenState, ancestors: seq<Ancestor>): (r: Result<GenState, GenError>)
    requires WellFormedStmt(body)
    ensures r.Success? ==> MemberWalk(st, r.value)
    ensures name in st.methods ==> r.Failure?
    ensures r.Success? ==> r.value.methods == st.methods[name := PathText(ancestors)]
    ensures r.Success? ==>
      r.value.entryPoint == if IsEntryName(name) then Some(PathText(ancestors) + "." + name) else st.entryPoint
    ensures r.Success? ==>
      && st.w.out + [Line(st.w.indent, HeaderText(FunctionHeader(parameters, name)))] <= r.value.w.out
      && EndsWith(r.value.w.out, [Line(st.w.indent, "end")] + Separator(st.w))
  {
    var header := FunctionHeader(parameters, name);
    var afterBody :- VisitStmt(body, st.(w := WriteOpen(st.w, header)), [MethodAncestor] + ancestors);
    var closed := CloseFunction(st, header, afterBody);
    var path := PathText(ancestors);
    if name in closed.methods then Failure(DuplicateMethod(name))
    else Success(closed.(methods := closed.methods[name := path],
                         entryPoint := if IsEntryName(name) then Some(path + "." + name) else closed.entryPoint))
  }

  /** A constructor: a function named `constructor` whose parameters are
      `self` and then the declared ones. */
  function VisitConstructor(parameters: seq<string>, body: Stmt, st: GenState, ancestors: seq<Ancestor>): (r: Result<GenState, GenError>)
    requires WellFormedStmt(body)
    ensures r.Success? ==> StmtWalk(st, r.value)
    ensures r.Success? ==>
      && st.w.out + [Line(st.w.indent, HeaderText(FunctionHeader(["self"] + parameters, "constructor")))] <= r.value.w.out
      && EndsWith(r.value.w.out, [Line(st.w.indent, "end")] + Separator(st.w))
  {
    var header := FunctionHeader(["self"] + parameters, "constructor");
    var afterBody :- VisitStmt(body, st.(w := WriteOpen(st.w, header)), [ConstructorAncestor] + ancestors);
    Success(CloseFunction(st, header, afterBody))
  }

  /** Closes the class table opened on `before`'s writer: the `new` function,
      a separator, `}` aligned with the table's line, and the enclosing
      table's separator. */
  function CloseClass(before: GenState, name: string, inner: GenState): (r: GenState)
    requires MemberWalk(before.(w := WriteGlobalTable(before.w, name)), inner)
    ensures MemberWalk(before, r)
    ensures WriteGlobalTable(before.w, name).out <= r.w.out
    ensures EndsWith(r.w.out, [Line(before.w.indent, "}")] + Separator(before.w))
  {
    inner.(w := WriteClassEnd(inner.w, name))
  }

  function VisitMember(m: Member, st: GenState, ancestors: seq<Ancestor>): (r: Result<GenState, GenError>)
    requires WellFormedMember(m)
    ensures r.Success? ==> MemberWalk(st, r.value)
    decreases m
  {
    match m
    case Namespace(_, members) =>
      VisitMembers(members, st, [NamespaceAncestor] + ancestors)
    case Class(name, members) =>
      var afterMembers :- VisitMembers(members, st.(w := WriteGlobalTable(st.w, name)), [ClassAncestor(name)] + ancestors);
      Success(CloseClass(st, name, afterMembers))
    case Method(name, parameters, body) => VisitMethod(name, parameters, body, st, ancestors)
    case Constructor(parameters, body) => VisitConstructor(parameters, body, st, ancestors)
    case Field(d) => VisitVariableDeclaration(d, st, ancestors)
  }

  function VisitMembers(ms: seq<Member>, st: GenState, ancestors: seq<Ancestor>): (r: Result<GenState, GenError>)
    requires WellFormedMembers(ms)
    ensures r.Success? ==> MemberWalk(st, r.value)
    decreases ms
  {
    if |ms| == 0 then Success(st)
    else
      var first :- VisitMember(ms[0], st, ancestors);
      VisitMembers(ms[1..], first, ancestors)
  }

  /** `cg.Visit(root)`: the usings write nothing; the members are walked at top level. */
  function VisitUnit(unit: CompilationUnit, st: GenState): (r: Result<GenState, GenError>)
    requires WellFormedMembers(unit.members)
    ensures r.Success? ==> MemberWalk(st, r.value)
  {
    VisitMembers(unit.members, st, [])
  }

  /** The call line of a plain-named call with leading trivia. */
  function CallLine(name: string, args: seq<Expr>, st: GenState): string
  {
    Line(st.w.indent, QualifyCall(st.methods, name) + "(" + Join(ArgumentTexts(args), ", ") + ");")
  }

  /** Such a call writes exactly its call line. */
  lemma EmitCallLine(name: string, args: seq<Expr>, st: GenState)
    ensures EmitCall(Invocation(IdentifierName(name, true), args), st).w.out == st.w.out + [CallLine(name, args, st)]
  {
    var e := Invocation(IdentifierName(name, true), args);
    assert GetMethodName(e.callee, st.w) == Named(name, st.w);
    assert HasLeadingTrivia(e);
  }

  /** A call statement with leading trivia writes its call line first. */
  lemma CallStatementLine(name: string, args: seq<Expr>, st: GenState, ancestors: seq<Ancestor>)
    ensures var r := VisitStmt(ExpressionStatement(Invocation(IdentifierName(name, true), args)), st, ancestors);
      && r.Success?
      && |st.w.out| < |r.value.w.out|
      && r.value.w.out[|st.w.out|] == CallLine(name, args, st)
  {
    var e := Invocation(IdentifierName(name, true), args);
    EmitCallLine(name, args, st);
    CallVisit(e, st);
    assert VisitStmt(ExpressionStatement(e), st, ancestors) == Success(VisitExpr(e, st));
  }

  /** A call's own line comes before anything its callee and arguments write. */
  lemma CallVisit(e: Expr, st: GenState)
    requires e.Invocation?
    ensures EmitCall(e, st).w.out <= VisitExpr(e, st).w.out
  {
    var called := EmitCall(e, st);
    assert VisitExpr(e, st) == VisitExprs(e.arguments, VisitExpr(e.callee, called));
  }

  /** A method that calls itself: its name is recorded only after its body,
      so the call line inside the body (the piece right after the header) is
      not qualified, whatever the enclosing classes. */
  lemma SelfCallUnqualified(name: string, args: seq<Expr>, st: GenState, ancestors: seq<Ancestor>)
    requires '.' !in name && '(' !in name && name !in st.methods
    ensures var body := ExpressionStatement(Invocation(IdentifierName(name, true), args));
      var r := VisitMethod(name, [], body, st, ancestors);
      r.Success? ==>
        && |st.w.out| + 1 < |r.value.w.out|
        && r.value.w.out[|st.w.out| + 1] == Line(st.w.indent + IndentLevel, name + "(" + Join(ArgumentTexts(args), ", ") + ");")
  {
    var body := ExpressionStatement(Invocation(IdentifierName(name, true), args));
    var entered := st.(w := WriteOpen(st.w, FunctionHeader([], name)));
    SubNameOfPlain(name);
    assert CallLine(name, args, entered) == Line(st.w.indent + IndentLevel, name + "(" + Join(ArgumentTexts(args), ", ") + ");");
    CallStatementLine(name, args, entered, [MethodAncestor] + ancestors);
    MethodBodyKept(name, [], body, st, ancestors);
  }

  /** Everything the body of a method writes stays in the output. */
  lemma MethodBodyKept(name: string, parameters: seq<string>, body: Stmt, st: GenState, ancestors: seq<Ancestor>)
    requires WellFormedStmt(body)
    ensures var entered := st.(w := WriteOpen(st.w, FunctionHeader(parameters, name)));
      var r := VisitMethod(name, parameters, body, st, ancestors);
      r.Success? ==>
        && VisitStmt(body, entered, [MethodAncestor] + ancestors).Success?
        && VisitStmt(body, entered, [MethodAncestor] + ancestors).value.w.out <= r.value.w.out
  {
  }

  // ---------------------------------------------------------------------
  // Sibling methods

  predicate IsEntryMethod(m: Member)
  {
    m.Method? && IsEntryName(m.name)
  }

  predicate AllMethods(ms: seq<Member>)
  {
    forall i | 0 <= i < |ms| :: ms[i].Method?
  }

  /** The entry point after a run of sibling methods, scanning them in order:
      every `Main` or `EntryPoint` replaces the one before. */
  function LastEntry(ms: seq<Member>, path: string, start: Option<string>): Option<string>
    decreases ms
  {
    if |ms| == 0 then start
    else LastEntry(ms[1..], path, if IsEntryMethod(ms[0]) then Some(path + "." + ms[0].name) else start)
  }

  /** The code generator's entry point after sibling methods is the scan's. */
  lemma {:induction false} EntryPointIsLastEntry(ms: seq<Member>, st: GenState, ancestors: seq<Ancestor>)
    requires WellFormedMembers(ms) && AllMethods(ms)
    requires VisitMembers(ms, st, ancestors).Success?
    ensures VisitMembers(ms, st, ancestors).value.entryPoint == LastEntry(ms, PathText(ancestors), st.entryPoint)
    decreases ms
  {
    if |ms| > 0 {
      var next := SiblingStep(ms, st, ancestors);
      EntryPointIsLastEntry(ms[1..], next, ancestors);
    }
  }

  /** Without an entry method the scan keeps its start. */
  lemma {:induction false} LastEntryNone(ms: seq<Member>, path: string, start: Option<string>)
    requires forall i | 0 <= i < |ms| :: !IsEntryMethod(ms[i])
    ensures LastEntry(ms, path, start) == start
    decreases ms
  {
    if |ms| > 0 {
      assert !IsEntryMethod(ms[0]);
      assert forall i | 0 <= i < |ms[1..]| :: ms[1..][i] == ms[i + 1];
      LastEntryNone(ms[1..], path, start);
    }
  }

  /** The scan ends on the last entry method. */
  lemma {:induction false} LastEntryAt(ms: seq<Member>, path: string, start: Option<string>, k: nat)
    requires k < |ms| && IsEntryMethod(ms[k])
    requires forall j | k < j < |ms| :: !IsEntryMethod(ms[j])
    ensures LastEntry(ms, path, start) == Some(path + "." + ms[k].name)
    decreases ms
  {
    var rest := ms[1..];
    assert forall i | 0 <= i < |rest| :: rest[i] == ms[i + 1];
    var next := if IsEntryMethod(ms[0]) then Some(path + "." + ms[0].name) else start;
    if k == 0 {
      LastEntryNone(rest, path, next);
    } else {
      LastEntryAt(rest, path, next, k - 1);
    }
  }

  /** Among sibling methods the entry point is set by the last one named
      `Main` or `EntryPoint`; without one it keeps its value. */
  lemma {:induction false} EntryPointLastWins(ms: seq<Member>, st: GenState, ancestors: seq<Ancestor>)
    requires WellFormedMembers(ms) && AllMethods(ms)
    requires VisitMembers(ms, st, ancestors).Success?
    ensures (forall i | 0 <= i < |ms| :: !IsEntryMethod(ms[i])) ==>
      VisitMembers(ms, st, ancestors).value.entryPoint == st.entryPoint
    ensures forall k | 0 <= k < |ms| && IsEntryMethod(ms[k]) && (forall j | k < j < |ms| :: !IsEntryMethod(ms[j])) ::
      VisitMembers(ms, st, ancestors).value.entryPoint == Some(PathText(ancestors) + "." + ms[k].name)
  {
    EntryPointIsLastEntry(ms, st, ancestors);
    if forall i | 0 <= i < |ms| :: !IsEntryMethod(ms[i]) {
      LastEntryNone(ms, PathText(ancestors), st.entryPoint);
    }
    forall k | 0 <= k < |ms| && IsEntryMethod(ms[k]) && (forall j | k < j < |ms| :: !IsEntryMethod(ms[j]))
      ensures VisitMembers(ms, st, ancestors).value.entryPoint == Some(PathText(ancestors) + "." + ms[k].name)
    {
      LastEntryAt(ms, PathText(ancestors), st.entryPoint, k);
    }
  }

  function MethodNames(ms: seq<Member>): (r: set<string>)
    requires AllMethods(ms)
    ensures forall i | 0 <= i < |ms| :: ms[i].name in r
    ensures forall n <- r :: exists i | 0 <= i < |ms| :: ms[i].name == n
  {
    set i | 0 <= i < |ms| :: ms[i].name
  }

  /** One method among siblings: recorded, and the entry point updated. */
  lemma MethodStep(m: Member, st: GenState, ancestors: seq<Ancestor>)
    requires m.Method? && WellFormedMember(m)
    requires VisitMember(m, st, ancestors).Success?
    ensures m.name !in st.methods
    ensures VisitMember(m, st, ancestors).value.methods == st.methods[m.name := PathText(ancestors)]
    ensures VisitMember(m, st, ancestors).value.entryPoint ==
      if IsEntryName(m.name) then Some(PathText(ancestors) + "." + m.name) else st.entryPoint
  {
  }

  /** One sibling method walked: the state the rest of the walk starts from. */
  lemma SiblingStep(ms: seq<Member>, st: GenState, ancestors: seq<Ancestor>) returns (next: GenState)
    requires |ms| > 0 && WellFormedMembers(ms) && AllMethods(ms)
    requires VisitMembers(ms, st, ancestors).Success?
    ensures WellFormedMembers(ms[1..]) && AllMethods(ms[1..])
    ensures VisitMembers(ms[1..], next, ancestors) == VisitMembers(ms, st, ancestors)
    ensures ms[0].name !in st.methods
    ensures next.methods == st.methods[ms[0].name := PathText(ancestors)]
    ensures next.entryPoint == if IsEntryName(ms[0].name) then Some(PathText(ancestors) + "." + ms[0].name) else st.entryPoint
  {
    MembersStep(ms, st, ancestors);
    MethodStep(ms[0], st, ancestors);
    RestAllMethods(ms);
    next := VisitMember(ms[0], st, ancestors).value;
  }

  /** `VisitMembers` walks the first member, then the rest. */
  lemma MembersStep(ms: seq<Member>, st: GenState, ancestors: seq<Ancestor>)
    requires |ms| > 0 && WellFormedMembers(ms)
    requires VisitMembers(ms, st, ancestors).Success?
    ensures WellFormedMember(ms[0]) && WellFormedMembers(ms[1..])
    ensures VisitMember(ms[0], st, ancestors).Success?
    ensures VisitMembers(ms, st, ancestors) == VisitMembers(ms[1..], VisitMember(ms[0], st, ancestors).value, ancestors)
  {
    assert forall i | 0 <= i < |ms[1..]| :: ms[1..][i] == ms[i + 1];
  }

  /** The names of `ms`, in order, are new to `taken` and to each other. */
  predicate FreshInTurn(ms: seq<Member>, taken: set<string>)
    requires AllMethods(ms)
    decreases ms
  {
    |ms| == 0 || (ms[0].name !in taken && FreshInTurn(ms[1..], taken + {ms[0].name}))
  }

  /** A successful walk over sibling methods adds each name to a table that
      did not hold it yet. */
  lemma {:induction false} SiblingsFreshInTurn(ms: seq<Member>, st: GenState, ancestors: seq<Ancestor>)
    requires WellFormedMembers(ms) && AllMethods(ms)
    requires VisitMembers(ms, st, ancestors).Success?
    ensures FreshInTurn(ms, st.methods.Keys)
    decreases ms
  {
    if |ms| > 0 {
      var next := SiblingStep(ms, st, ancestors);
      assert next.methods.Keys == st.methods.Keys + {ms[0].name};
      SiblingsFreshInTurn(ms[1..], next, ancestors);
    }
  }

  /** Names fresh in turn were not taken before. */
  lemma {:induction false} FreshInTurnNotTaken(ms: seq<Member>, taken: set<string>, i: nat)
    requires AllMethods(ms) && FreshInTurn(ms, taken) && i < |ms|
    ensures ms[i].name !in taken
    decreases ms
  {
    if i > 0 {
      FreshInTurnNotTaken(ms[1..], taken + {ms[0].name}, i - 1);
      assert ms[1..][i - 1] == ms[i];
    }
  }

  /** Names fresh in turn are pairwise distinct. */
  lemma {:induction false} FreshInTurnDistinct(ms: seq<Member>, taken: set<string>, i: nat, j: nat)
    requires AllMethods(ms) && FreshInTurn(ms, taken) && i < j < |ms|
    ensures ms[i].name != ms[j].name
    decreases ms
  {
    if i == 0 {
      FreshInTurnNotTaken(ms[1..], taken + {ms[0].name}, j - 1);
      assert ms[1..][j - 1] == ms[j];
    } else {
      FreshInTurnDistinct(ms[1..], taken + {ms[0].name}, i - 1, j - 1);
      assert ms[1..][i - 1] == ms[i] && ms[1..][j - 1] == ms[j];
    }
  }

  /** Sibling methods walked without failure have pairwise distinct names,
      none recorded before: `Dictionary.Add` never overwrites. */
  lemma {:induction false} SiblingMethodsFresh(ms: seq<Member>, st: GenState, ancestors: seq<Ancestor>)
    requires WellFormedMembers(ms) && AllMethods(ms)
    requires VisitMembers(ms, st, ancestors).Success?
    ensures forall i | 0 <= i < |ms| :: ms[i].name !in st.methods
    ensures forall i, j | 0 <= i < j < |ms| :: ms[i].name != ms[j].name
  {
    SiblingsFreshInTurn(ms, st, ancestors);
    forall i | 0 <= i < |ms| ensures ms[i].name !in st.methods {
      FreshInTurnNotTaken(ms, st.methods.Keys, i);
    }
    forall i, j | 0 <= i < j < |ms| ensures ms[i].name != ms[j].name {
      FreshInTurnDistinct(ms, st.methods.Keys, i, j);
    }
  }

  /** The method table after recording each of `ms` under `path`, in order. */
  function RecordAll(methods: map<string, string>, ms: seq<Member>, path: string): map<string, string>
    requires AllMethods(ms)
    decreases ms
  {
    if |ms| == 0 then methods else RecordAll(methods[ms[0].name := path], ms[1..], path)
  }

  /** The code generator's table after sibling methods is the recorded one. */
  lemma {:induction false} SiblingsRecordAll(ms: seq<Member>, st: GenState, ancestors: seq<Ancestor>)
    requires WellFormedMembers(ms) && AllMethods(ms)
    requires VisitMembers(ms, st, ancestors).Success?
    ensures VisitMembers(ms, st, ancestors).value.methods == RecordAll(st.methods, ms, PathText(ancestors))
    decreases ms
  {
    if |ms| > 0 {
      var next := SiblingStep(ms, st, ancestors);
      SiblingsRecordAll(ms[1..], next, ancestors);
    }
  }

  /** Recording adds exactly the names of `ms`, each with the path. */
  lemma {:induction false} RecordAllContents(methods: map<string, string>, ms: seq<Member>, path: string)
    requires AllMethods(ms)
    ensures RecordAll(methods, ms, path).Keys == methods.Keys + MethodNames(ms)
    ensures forall n <- MethodNames(ms) :: RecordAll(methods, ms, path)[n] == path
    ensures forall n <- methods.Keys - MethodNames(ms) :: RecordAll(methods, ms, path)[n] == methods[n]
    decreases ms
  {
    if |ms| > 0 {
      MethodNamesStep(ms);
      RecordAllContents(methods[ms[0].name := path], ms[1..], path);
    }
  }

  /** Each of the sibling methods is recorded with the path of the enclosing
      classes, and no other name is added. */
  lemma SiblingMethodsRecorded(ms: seq<Member>, st: GenState, ancestors: seq<Ancestor>)
    requires WellFormedMembers(ms) && AllMethods(ms)
    requires VisitMembers(ms, st, ancestors).Success?
    ensures VisitMembers(ms, st, ancestors).value.methods.Keys == st.methods.Keys + MethodNames(ms)
    ensures forall n <- MethodNames(ms) :: VisitMembers(ms, st, ancestors).value.methods[n] == PathText(ancestors)
  {
    SiblingsRecordAll(ms, st, ancestors);
    RecordAllContents(st.methods, ms, PathText(ancestors));
  }

  lemma MethodNamesStep(ms: seq<Member>)
    requires |ms| > 0 && AllMethods(ms)
    ensures AllMethods(ms[1..]) && MethodNames(ms) == {ms[0].name} + MethodNames(ms[1..])
  {
    RestAllMethods(ms);
    forall n | n in MethodNames(ms) ensures n in {ms[0].name} + MethodNames(ms[1..]) {
      var i :| 0 <= i < |ms| && ms[i].name == n;
      if i > 0 { assert ms[1..][i - 1] == ms[i]; }
    }
  }

  lemma RestAllMethods(ms: seq<Member>)
    requires |ms| > 0 && AllMethods(ms)
    ensures AllMethods(ms[1..])
  {
    forall i | 0 <= i < |ms[1..]| ensures ms[1..][i].Method? {
      assert ms[1..][i] == ms[i + 1];
    }
  }
}

=== FILE: libraries.dfy ===
/** Name-translation libraries: the `LibraryInterface` hooks, the two shipped
    libraries (Console: exact dictionary substitution; Roblox: substring
    replacement), the ordered `InUse` chain and the `LibraryDict` registry. */
module Libraries {
  import opened Wrappers
  import opened Strings
  import opened LuaWriter

  /** An implementation of `LibraryInterface`. `InterfaceDefaults` is one that
      keeps both default members of the interface. */
  datatype Library = ConsoleLibrary | RobloxLibrary | InterfaceDefaults

  /** `ConsoleLibrary.ConsoleWords`. */
  const ConsoleWords: map<string, string> := map["Console.WriteLine" := "print"]

  const GetChildrenName: string := "GetChildren"

  /** The one key of `RobloxLibrary.PartialReplace` and its value. */
  const DotGetChildren: string := "." + GetChildrenName
  const ColonGetChildren: string := ":" + GetChildrenName

  /** `RobloxLibrary.PartialReplace`, in enumeration order. */
  const PartialReplace: seq<(string, string)> := [(DotGetChildren, ColonGetChildren)]

  const ConsoleBanner: string := "Console library in use!"
  const RobloxBanner: string := "Roblox library in use!"

  // ---------------------------------------------------------------------
  // Console

  /** A dictionary lookup whose failure is caught: a key is substituted, any
      other name comes back as it was. */
  function ConsoleOnCall(name: string): (r: string)
    ensures name == "Console.WriteLine" ==> r == "print"
    ensures name != "Console.WriteLine" ==> r == name
  {
    if name in ConsoleWords then ConsoleWords[name] else name
  }

  /** `"print"` is not a key, so a second lookup changes nothing. */
  lemma ConsoleOnCallIdempotent(name: string)
    ensures ConsoleOnCall(ConsoleOnCall(name)) == ConsoleOnCall(name)
  {
  }

  // ---------------------------------------------------------------------
  // Roblox

  /** `name = name.Replace(key, value)` for every pair, in order. */
  function ReplacePairs(name: string, pairs: seq<(string, string)>): string
    requires forall i | 0 <= i < |pairs| :: |pairs[i].0| > 0
    decreases pairs
  {
    if |pairs| == 0 then name
    else ReplacePairs(ReplaceAll(name, pairs[0].0, pairs[0].1), pairs[1..])
  }

  function RobloxOnCall(name: string): string
  {
    ReplacePairs(name, PartialReplace)
  }

  /** The Roblox hook is the one replacement `.GetChildren` -> `:GetChildren`. */
  lemma RobloxOnCallIsReplace(name: string)
    ensures RobloxOnCall(name) == ReplaceAll(name, DotGetChildren, ColonGetChildren)
  {
    var replaced := ReplaceAll(name, DotGetChildren, ColonGetChildren);
    assert PartialReplace[0] == (DotGetChildren, ColonGetChildren);
    assert PartialReplace[1..] == [];
    assert ReplacePairs(replaced, []) == replaced;
  }

  /** Facts about the two constants the replacement lemmas need: the pattern
      and its replacement differ only in their first character, which occurs
      nowhere else in either. */
  lemma GetChildrenConstants()
    ensures |DotGetChildren| == |ColonGetChildren| == 12
    ensures DotGetChildren[0] == '.' && ColonGetChildren[0] == ':'
    ensures DotGetChildren[1..] == ColonGetChildren[1..] == GetChildrenName
    ensures '.' !in GetChildrenName && ':' !in GetChildrenName
  {
    assert DotGetChildren[1..] == GetChildrenName;
    assert ColonGetChildren[1..] == GetChildrenName;
  }

  /** With a pattern and replacement of equal length that agree after their
      first character, every character of the result is the original one,
      except the first character of an occurrence that was replaced. */
  lemma {:induction false} ReplaceAllPointwise(s: string, pat: string, rep: string, k: nat)
    requires |pat| == |rep| > 0 && pat[1..] == rep[1..]
    requires k < |s|
    ensures |ReplaceAll(s, pat, rep)| == |s|
    ensures ReplaceAll(s, pat, rep)[k] == s[k]
         || (ReplaceAll(s, pat, rep)[k] == rep[0] && OccursAt(s, pat, k))
    decreases |s|
  {
    ReplaceAllLength(s, pat, rep);
    if |s| < |pat| {
    } else if s[..|pat|] == pat {
      var rest := s[|pat|..];
      if k < |pat| {
        if k > 0 {
          assert rep[k] == rep[1..][k - 1] == pat[1..][k - 1] == pat[k];
          assert s[k] == s[..|pat|][k];
        } else {
          assert OccursAt(s, pat, 0);
        }
      } else {
        ReplaceAllPointwise(rest, pat, rep, k - |pat|);
        if OccursAt(rest, pat, k - |pat|) {
          assert s[k..k + |pat|] == rest[k - |pat|..k];
        }
      }
    } else {
      if k > 0 {
        ReplaceAllPointwise(s[1..], pat, rep, k - 1);
        if OccursAt(s[1..], pat, k - 1) {
          assert s[k..k + |pat|] == s[1..][k - 1..k - 1 + |pat|];
        }
      }
    }
  }

  /** An occurrence starting inside another one repeats the pattern's first
      character later in the pattern. */
  lemma OverlapRepeatsFirst(s: string, pat: string, k: nat)
    requires |pat| <= |s| && s[..|pat|] == pat
    requires 0 < k < |pat| && OccursAt(s, pat, k)
    ensures pat[0] in pat[1..]
  {
    assert s[k] == s[..|pat|][k] == pat[k];
    assert s[k] == s[k..k + |pat|][0] == pat[0];
    assert pat[1..][k - 1] == pat[k];
  }

  /** When the pattern's first character occurs nowhere else in it,
      occurrences cannot overlap and every one of them is replaced. */
  lemma {:induction false} ReplaceAllEveryOccurrence(s: string, pat: string, rep: string, k: nat)
    requires |pat| == |rep| > 0 && pat[0] !in pat[1..]
    requires OccursAt(s, pat, k)
    ensures |ReplaceAll(s, pat, rep)| == |s|
    ensures ReplaceAll(s, pat, rep)[k..k + |pat|] == rep
    decreases |s|, 1
  {
    ReplaceAllLength(s, pat, rep);
    if s[..|pat|] == pat {
      if k == 0 {
      } else if k < |pat| {
        OverlapRepeatsFirst(s, pat, k);
        assert false;
      } else {
        OccurrenceAfterMatch(s, pat, rep, k);
      }
    } else {
      assert k != 0;
      OccurrenceAfterMiss(s, pat, rep, k);
    }
  }

  /** The scan replaced a match at the front; `k` lies after it. */
  lemma {:induction false} OccurrenceAfterMatch(s: string, pat: string, rep: string, k: nat)
    requires |pat| == |rep| > 0 && pat[0] !in pat[1..]
    requires OccursAt(s, pat, k) && |pat| <= k && s[..|pat|] == pat
    ensures k + |pat| <= |ReplaceAll(s, pat, rep)| && ReplaceAll(s, pat, rep)[k..k + |pat|] == rep
    decreases |s|, 0
  {
    var rest := s[|pat|..];
    OccursInSuffix(s, pat, k, |pat|);
    ReplaceAllEveryOccurrence(rest, pat, rep, k - |pat|);
    ReplaceAllAtMatch(s, pat, rep);
    SliceThrough(ReplaceAll(s, pat, rep), rep, ReplaceAll(rest, pat, rep), k, rep);
  }

  /** The scan kept the first character; `k` lies after it. */
  lemma {:induction false} OccurrenceAfterMiss(s: string, pat: string, rep: string, k: nat)
    requires |pat| == |rep| > 0 && pat[0] !in pat[1..]
    requires OccursAt(s, pat, k) && 0 < k && s[..|pat|] != pat
    ensures k + |pat| <= |ReplaceAll(s, pat, rep)| && ReplaceAll(s, pat, rep)[k..k + |pat|] == rep
    decreases |s|, 0
  {
    var rest := s[1..];
    OccursInSuffix(s, pat, k, 1);
    ReplaceAllEveryOccurrence(rest, pat, rep, k - 1);
    ReplaceAllAtMiss(s, pat, rep);
    SliceThrough(ReplaceAll(s, pat, rep), [s[0]], ReplaceAll(rest, pat, rep), k, rep);
  }

  /** One step of the scan at a match. */
  lemma ReplaceAllAtMatch(s: string, pat: string, rep: string)
    requires 0 < |pat| <= |s| && s[..|pat|] == pat
    ensures ReplaceAll(s, pat, rep) == rep + ReplaceAll(s[|pat|..], pat, rep)
  {
  }

  /** One step of the scan where the text does not start with the pattern. */
  lemma ReplaceAllAtMiss(s: string, pat: string, rep: string)
    requires 0 < |pat| <= |s| && s[..|pat|] != pat
    ensures ReplaceAll(s, pat, rep) == [s[0]] + ReplaceAll(s[1..], pat, rep)
  {
  }

  /** An occurrence past a cut is an occurrence in what follows the cut. */
  lemma OccursInSuffix(s: string, pat: string, k: nat, cut: nat)
    requires OccursAt(s, pat, k) && cut <= k
    ensures OccursAt(s[cut..], pat, k - cut)
  {
    assert s[cut..][k - cut..k - cut + |pat|] == s[k..k + |pat|];
  }

  /** A run found in the tail of a concatenation is found in the whole. */
  lemma SliceThrough<T>(whole: seq<T>, head: seq<T>, tail: seq<T>, k: nat, run: seq<T>)
    requires whole == head + tail && |head| <= k && k + |run| <= |whole|
    requires tail[k - |head|..k - |head| + |run|] == run
    ensures whole[k..k + |run|] == run
  {
    assert whole[k..k + |run|] == tail[k - |head|..k - |head| + |run|];
  }

  /** Every occurrence of `.GetChildren` becomes `:GetChildren`. */
  lemma RobloxReplacesEveryOccurrence(name: string, k: nat)
    requires OccursAt(name, DotGetChildren, k)
    ensures OccursAt(RobloxOnCall(name), ColonGetChildren, k)
  {
    RobloxOnCallIsReplace(name);
    GetChildrenConstants();
    ReplaceAllEveryOccurrence(name, DotGetChildren, ColonGetChildren, k);
  }

  /** The Roblox hook keeps the length, and the only characters it changes
      are the `.` of occurrences of `.GetChildren`, each turned into `:`. */
  lemma RobloxChangesOnlyDots(name: string)
    ensures |RobloxOnCall(name)| == |name|
    ensures forall k | 0 <= k < |name| ::
      RobloxOnCall(name)[k] == name[k]
      || (name[k] == '.' && RobloxOnCall(name)[k] == ':' && OccursAt(name, DotGetChildren, k))
  {
    RobloxOnCallIsReplace(name);
    GetChildrenConstants();
    ReplaceAllLength(name, DotGetChildren, ColonGetChildren);
    forall k | 0 <= k < |name|
      ensures RobloxOnCall(name)[k] == name[k]
      || (name[k] == '.' && RobloxOnCall(name)[k] == ':' && OccursAt(name, DotGetChildren, k))
    {
      ReplaceAllPointwise(name, DotGetChildren, ColonGetChildren, k);
      if OccursAt(name, DotGetChildren, k) {
        assert name[k] == name[k..k + 12][0];
      }
    }
  }

  /** A name without `.GetChildren` is returned unchanged. */
  lemma RobloxUnchangedWithout(name: string)
    requires !Contains(name, DotGetChildren)
    ensures RobloxOnCall(name) == name
  {
    RobloxOnCallIsReplace(name);
    GetChildrenConstants();
    ReplaceAllAbsent(name, DotGetChildren, ColonGetChildren);
  }

  /** No `.GetChildren` survives the Roblox hook. */
  lemma RobloxLeavesNoOccurrence(name: string)
    ensures !Contains(RobloxOnCall(name), DotGetChildren)
  {
    var r := RobloxOnCall(name);
    RobloxChangesOnlyDots(name);
    GetChildrenConstants();
    if Contains(r, DotGetChildren) {
      var k: nat :| k <= |r| && OccursAt(r, DotGetChildren, k);
      assert r[k..k + 12] == DotGetChildren;
      forall j | k <= j < k + 12
        ensures name[j] == DotGetChildren[j - k]
      {
        assert r[j] == r[k..k + 12][j - k];
        if j > k {
          assert r[j] == GetChildrenName[j - k - 1];
          assert r[j] != ':';
        }
      }
      assert name[k..k + 12] == DotGetChildren;
      RobloxReplacesEveryOccurrence(name, k);
      assert false;
    }
  }

  /** Applying the Roblox hook twice is applying it once. */
  lemma RobloxOnCallIdempotent(name: string)
    ensures RobloxOnCall(RobloxOnCall(name)) == RobloxOnCall(name)
  {
    RobloxLeavesNoOccurrence(name);
    RobloxUnchangedWithout(RobloxOnCall(name));
  }

  /** Only `Console.WriteLine` itself comes out of the Roblox hook as
      `Console.WriteLine`: the hook writes `:` only, and that name has none. */
  lemma RobloxOnCallReachesWriteLineOnlyFromItself(name: string)
    requires RobloxOnCall(name) == "Console.WriteLine"
    ensures name == "Console.WriteLine"
  {
    RobloxChangesOnlyDots(name);
    var r := RobloxOnCall(name);
    forall k | 0 <= k < |name|
      ensures name[k] == r[k]
    {
      assert r[k] in "Console.WriteLine";
      assert ':' !in "Console.WriteLine";
    }
  }

  // ---------------------------------------------------------------------
  // The interface

  /** `OnCall` of a library; the interface default answers `"nil"` whatever it is given. */
  function OnCall(lib: Library, name: string): (r: string)
    ensures lib.InterfaceDefaults? ==> r == "nil"
    ensures lib.ConsoleLibrary? ==> r == ConsoleOnCall(name)
    ensures lib.RobloxLibrary? ==> r == RobloxOnCall(name)
  {
    match lib
    case ConsoleLibrary => ConsoleOnCall(name)
    case RobloxLibrary => RobloxOnCall(name)
    case InterfaceDefaults => "nil"
  }

  /** `Call` announces the library with one comment line; the interface
      default writes nothing. */
  function Call(lib: Library, w: Writer): (r: Writer)
    ensures SameLevels(w, r) && r.selfLevel == w.selfLevel
    ensures lib.ConsoleLibrary? ==> r.out == w.out + [Line(w.indent, "--" + ConsoleBanner)]
    ensures lib.RobloxLibrary? ==> r.out == w.out + [Line(w.indent, "--" + RobloxBanner)]
    ensures lib.InterfaceDefaults? ==> r == w
  {
    match lib
    case ConsoleLibrary => WriteComment(w, ConsoleBanner)
    case RobloxLibrary => WriteComment(w, RobloxBanner)
    case InterfaceDefaults => w
  }

  // ---------------------------------------------------------------------
  // InUse and LibraryDict

  /** `InUse.Add(lib)`: the list grows at the end; repeats are allowed. */
  function Use(inUse: seq<Library>, lib: Library): (r: seq<Library>)
    ensures |r| == |inUse| + 1 && r[..|inUse|] == inUse && r[|inUse|] == lib
  {
    inUse + [lib]
  }

  /** `foreach (var l in InUse) name = l.OnCall(name)`: each hook sees the
      previous one's answer. */
  function TranslateName(inUse: seq<Library>, name: string): string
  {
    if |inUse| == 0 then name else TranslateName(inUse[1..], OnCall(inUse[0], name))
  }

  /** A library added at the end of `InUse` rewrites last. */
  lemma {:induction false} TranslateNameSnoc(inUse: seq<Library>, lib: Library, name: string)
    ensures TranslateName(inUse + [lib], name) == OnCall(lib, TranslateName(inUse, name))
  {
    if |inUse| == 0 {
      assert (inUse + [lib])[1..] == [];
    } else {
      assert (inUse + [lib])[1..] == inUse[1..] + [lib];
      TranslateNameSnoc(inUse[1..], lib, OnCall(inUse[0], name));
    }
  }

  /** Libraries the registry can hand out: the two shipped ones. */
  predicate Shipped(inUse: seq<Library>)
  {
    forall i | 0 <= i < |inUse| :: !inUse[i].InterfaceDefaults?
  }

  /** A chain of shipped libraries turns `Console.WriteLine` into `print` when
      the Console library is in it, and otherwise applies the Roblox
      replacement when that library is in it, however often each occurs. */
  lemma {:induction false} ShippedChain(inUse: seq<Library>, name: string)
    requires Shipped(inUse)
    ensures TranslateName(inUse, name) ==
      if name == "Console.WriteLine" && ConsoleLibrary in inUse then "print"
      else if RobloxLibrary in inUse then RobloxOnCall(name)
      else name
  {
    if |inUse| == 0 {
    } else {
      var rest := inUse[1..];
      assert Shipped(rest) by {
        forall i | 0 <= i < |rest| ensures !rest[i].InterfaceDefaults? {
          assert rest[i] == inUse[i + 1];
        }
      }
      assert forall l :: l in inUse <==> l == inUse[0] || l in rest by {
        assert inUse == [inUse[0]] + rest;
      }
      var next := OnCall(inUse[0], name);
      ShippedChain(rest, next);
      RobloxUnchangedWithout("print");
      if inUse[0].ConsoleLibrary? {
      } else {
        assert inUse[0].RobloxLibrary?;
        if name == "Console.WriteLine" {
          WriteLineHasNoGetChildren();
          RobloxUnchangedWithout(name);
        } else {
          if next == "Console.WriteLine" {
            RobloxOnCallReachesWriteLineOnlyFromItself(name);
          }
          RobloxOnCallIdempotent(name);
        }
      }
    }
  }

  lemma WriteLineHasNoGetChildren()
    ensures !Contains("Console.WriteLine", DotGetChildren)
  {
    var s := "Console.WriteLine";
    GetChildrenConstants();
    forall k: nat | k <= |s|
      ensures !OccursAt(s, DotGetChildren, k)
    {
      if OccursAt(s, DotGetChildren, k) {
        assert false;
      }
    }
  }

  /** Translating a name twice through a chain of shipped libraries gives the
      same name as translating it once. */
  lemma ShippedChainIdempotent(inUse: seq<Library>, name: string)
    requires Shipped(inUse)
    ensures TranslateName(inUse, TranslateName(inUse, name)) == TranslateName(inUse, name)
  {
    var once := TranslateName(inUse, name);
    ShippedChain(inUse, name);
    ShippedChain(inUse, once);
    RobloxUnchangedWithout("print");
    if name == "Console.WriteLine" && ConsoleLibrary in inUse {
    } else if RobloxLibrary in inUse {
      if once == "Console.WriteLine" {
        RobloxOnCallReachesWriteLineOnlyFromItself(name);
      }
      RobloxOnCallIdempotent(name);
    }
  }

  /** A name without any `.` goes through a chain of shipped libraries
      unchanged: it is not `Console.WriteLine` and holds no `.GetChildren`. */
  lemma DotFreeNameKept(inUse: seq<Library>, name: string)
    requires Shipped(inUse) && '.' !in name
    ensures TranslateName(inUse, name) == name
  {
    ShippedChain(inUse, name);
    GetChildrenConstants();
    assert "Console.WriteLine"[7] == '.';
    forall k: nat | k <= |name|
      ensures !OccursAt(name, DotGetChildren, k)
    {
      if k + 12 <= |name| {
        assert name[k..k + 12][0] == name[k];
      }
    }
    RobloxUnchangedWithout(name);
  }

  /** The callee `T.new` the normaliser makes of `new T(...)` goes through a
      chain of shipped libraries unchanged when `T` is a plain identifier. */
  lemma CreationNameKept(inUse: seq<Library>, typeName: string)
    requires Shipped(inUse) && '.' !in typeName
    ensures TranslateName(inUse, typeName + ".new") == typeName + ".new"
  {
    var name := typeName + ".new";
    ShippedChain(inUse, name);
    assert name[|name| - 1] == 'w';
    assert "Console.WriteLine"[16] == 'e';
    GetChildrenConstants();
    forall k: nat | k <= |name|
      ensures !OccursAt(name, DotGetChildren, k)
    {
      if k + 12 <= |name| {
        assert name[k..k + 12][0] == name[k] == typeName[k];
      }
    }
    RobloxUnchangedWithout(name);
  }

  /** `LibraryDict`: each key names at most one library. */
  type Registry = map<string, Library>

  datatype RegistryError = DuplicateKey(key: string)

  /** `LibraryDict.Add(key, lib)`, which throws when the key is present. */
  function Register(registry: Registry, key: string, lib: Library): (r: Result<Registry, RegistryError>)
    ensures r.Failure? <==> key in registry
    ensures r.Success? ==> r.value.Keys == registry.Keys + {key} && r.value[key] == lib
    ensures r.Success? ==> forall k <- registry.Keys :: r.value[k] == registry[k]
  {
    if key in registry then Failure(DuplicateKey(key)) else Success(registry[key := lib])
  }
}

=== FILE: lua_writer.dfy ===
/** The output writer: indentation, the three nesting counters and the
    append-only buffer, with one emitting function per template of the
    original `LuaWriter`. The process-wide static state of the original is an
    explicit `Writer` value here, threaded through every call.

    The buffer is kept as the sequence of pieces handed to the string
    builder, one per `Append` or `AppendLine` call; the text is their
    concatenation, `Text`. */
module LuaWriter {
  import opened Strings
  import opened Syntax

  /** Blanks added by every opening template and removed by every closing one. */
  const IndentLevel: nat := 3

  /** The line terminator. `AppendLine` adds the platform's terminator and
      `WriteTableSep` a literal line feed; the model takes the platform
      whose terminator is a line feed, so the two agree. */
  const NewLine: string := "\n"

  datatype Writer = Writer(indent: nat, blockLevel: int, functionLevel: int, selfLevel: int, out: seq<string>)

  /** The state at the start of a run: no indentation, all counters zero, empty buffer. */
  const Fresh: Writer := Writer(0, 0, 0, 0, [])

  /** The buffer's text, `sb.ToString()`. */
  function Text(w: Writer): string
  {
    Concat(w.out)
  }

  function GetIndent(w: Writer): (r: string)
    ensures |r| == w.indent
    ensures forall i :: 0 <= i < |r| ==> r[i] == ' '
  {
    Spaces(w.indent)
  }

  /** One line of text at indentation `indent`, as `AppendLine` leaves it. */
  function Line(indent: nat, text: string): string
  {
    Spaces(indent) + text + NewLine
  }

  /** Indentation and the block and function counters agree. */
  predicate SameLevels(a: Writer, b: Writer)
  {
    a.indent == b.indent && a.blockLevel == b.blockLevel && a.functionLevel == b.functionLevel
  }

  /** `sb.AppendLine($"{GetIndent()}{text}")`. */
  function AppendLine(w: Writer, text: string): Writer
  {
    w.(out := w.out + [Line(w.indent, text)])
  }

  predicate InsideFunction(w: Writer)
  {
    w.functionLevel > 0
  }

  predicate InsideBlock(w: Writer)
  {
    w.blockLevel > 0
  }

  predicate UseSelf(w: Writer)
  {
    w.selfLevel > 0
  }

  // ---------------------------------------------------------------------
  // Table delimiters

  /** Opens a table at the current indentation. */
  function WriteL(w: Writer): (r: Writer)
    ensures r.blockLevel == w.blockLevel + 1 && r.indent == w.indent + IndentLevel
    ensures r.functionLevel == w.functionLevel && r.selfLevel == w.selfLevel
    ensures r.out == w.out + [Line(w.indent, "{")]
  {
    var entered := AppendLine(w.(blockLevel := w.blockLevel + 1), "{");
    entered.(indent := entered.indent + IndentLevel)
  }

  /** Opens a table on the current line, without indentation. */
  function WriteLUn(w: Writer): (r: Writer)
    ensures r.blockLevel == w.blockLevel + 1 && r.indent == w.indent + IndentLevel
    ensures r.functionLevel == w.functionLevel && r.selfLevel == w.selfLevel
    ensures r.out == w.out + ["{" + NewLine]
  {
    Writer(w.indent + IndentLevel, w.blockLevel + 1, w.functionLevel, w.selfLevel, w.out + ["{" + NewLine])
  }

  /** Closes a table: both counters drop before `}` is written, so it lines up
      with the line that opened the table. */
  function WriteR(w: Writer): (r: Writer)
    requires w.indent >= IndentLevel
    ensures r.blockLevel == w.blockLevel - 1 && r.indent == w.indent - IndentLevel
    ensures r.functionLevel == w.functionLevel && r.selfLevel == w.selfLevel
    ensures r.out == w.out + [Line(w.indent - IndentLevel, "}")]
  {
    AppendLine(w.(blockLevel := w.blockLevel - 1, indent := w.indent - IndentLevel), "}")
  }

  /** `global = ` at the current indentation, without a line break. */
  function WriteGlobalEq(w: Writer, global: string): (r: Writer)
    ensures SameLevels(w, r) && r.selfLevel == w.selfLevel
    ensures r.out == w.out + [Spaces(w.indent) + global + " = "]
  {
    w.(out := w.out + [GetIndent(w) + global + " = "])
  }

  /** `global = {` opening a table, in two pieces that make one line. */
  function WriteGlobalTable(w: Writer, global: string): (r: Writer)
    ensures r.blockLevel == w.blockLevel + 1 && r.indent == w.indent + IndentLevel
    ensures r.functionLevel == w.functionLevel && r.selfLevel == w.selfLevel
    ensures |r.out| == |w.out| + 2 && r.out[..|w.out|] == w.out
    ensures Concat(r.out[|w.out|..]) == Line(w.indent, global + " = {")
  {
    var r := WriteLUn(WriteGlobalEq(w, global));
    assert r.out[|w.out|..] == [Spaces(w.indent) + global + " = ", "{" + NewLine];
    assert Concat(r.out[|w.out|..]) == Spaces(w.indent) + global + " = " + ("{" + NewLine + "");
    r
  }

  // ---------------------------------------------------------------------
  // Function, conditional and loop scopes

  /** The header line of a scope that `WriteEnd` closes. */
  datatype Opener =
    | FunctionHeader(args: seq<string>, name: string)
    | IfHeader(condition: string)
    | WhileHeader(condition: string)
    | ForHeader(variable: string, init: string, bound: string)
    | ForPairsHeader(element: string, collection: string)

  function HeaderText(o: Opener): string
  {
    match o
    case FunctionHeader(args, name) => name + " = function(" + Join(args, ", ") + ")"
    case IfHeader(c) => "if " + c + " then"
    case WhileHeader(c) => "while " + c + " do"
    case ForHeader(v, init, bound) => "for " + v + " " + init + ", " + bound + " do"
    case ForPairsHeader(v, collection) => "for " + v + "_index," + v + " in pairs(" + collection + ") do"
  }

  /** Writes the header at the current indentation, then indents and enters a
      function level. */
  function WriteOpen(w: Writer, o: Opener): (r: Writer)
    ensures r.indent == w.indent + IndentLevel && r.functionLevel == w.functionLevel + 1
    ensures r.blockLevel == w.blockLevel && r.selfLevel == w.selfLevel
    ensures r.out == w.out + [Line(w.indent, HeaderText(o))]
  {
    var headed := AppendLine(w, HeaderText(o));
    headed.(indent := headed.indent + IndentLevel, functionLevel := headed.functionLevel + 1)
  }

  function WriteFunction(w: Writer, args: seq<string>, name: string): (r: Writer)
    ensures r.indent == w.indent + IndentLevel && r.functionLevel == w.functionLevel + 1
    ensures r.blockLevel == w.blockLevel && r.selfLevel == w.selfLevel
    ensures r.out == w.out + [Line(w.indent, name + " = function(" + Join(args, ", ") + ")")]
  {
    WriteOpen(w, FunctionHeader(args, name))
  }

  function WriteIf(w: Writer, condition: string): (r: Writer)
    ensures r.indent == w.indent + IndentLevel && r.functionLevel == w.functionLevel + 1
    ensures r.blockLevel == w.blockLevel && r.selfLevel == w.selfLevel
    ensures r.out == w.out + [Line(w.indent, "if " + condition + " then")]
  {
    WriteOpen(w, IfHeader(condition))
  }

  function WriteWhile(w: Writer, condition: string): (r: Writer)
    ensures r.indent == w.indent + IndentLevel && r.functionLevel == w.functionLevel + 1
    ensures r.blockLevel == w.blockLevel && r.selfLevel == w.selfLevel
    ensures r.out == w.out + [Line(w.indent, "while " + condition + " do")]
  {
    WriteOpen(w, WhileHeader(condition))
  }

  function WriteFor(w: Writer, variable: string, init: string, bound: string): (r: Writer)
    ensures r.indent == w.indent + IndentLevel && r.functionLevel == w.functionLevel + 1
    ensures r.blockLevel == w.blockLevel && r.selfLevel == w.selfLevel
    ensures r.out == w.out + [Line(w.indent, "for " + variable + " " + init + ", " + bound + " do")]
  {
    WriteOpen(w, ForHeader(variable, init, bound))
  }

  function WriteForPairs(w: Writer, element: string, collection: string): (r: Writer)
    ensures r.indent == w.indent + IndentLevel && r.functionLevel == w.functionLevel + 1
    ensures r.blockLevel == w.blockLevel && r.selfLevel == w.selfLevel
    ensures r.out == w.out + [Line(w.indent, "for " + element + "_index," + element + " in pairs(" + collection + ") do")]
  {
    WriteOpen(w, ForPairsHeader(element, collection))
  }

  /** Closes a scope: indentation and function level drop before `end` is
      written; the self level drops only while it is positive. */
  function WriteEnd(w: Writer): (r: Writer)
    requires w.indent >= IndentLevel
    ensures r.indent == w.indent - IndentLevel && r.functionLevel == w.functionLevel - 1
    ensures r.blockLevel == w.blockLevel
    ensures r.selfLevel == if w.selfLevel > 0 then w.selfLevel - 1 else w.selfLevel
    ensures r.out == w.out + [Line(w.indent - IndentLevel, "end")]
  {
    var closed := w.(indent := w.indent - IndentLevel, functionLevel := w.functionLevel - 1);
    var unselfed := if UseSelf(closed) then closed.(selfLevel := closed.selfLevel - 1) else closed;
    AppendLine(unselfed, "end")
  }

  /** An opener followed directly by `WriteEnd` restores every level, and the
      `end` line has exactly the indentation of its header. */
  lemma OpenThenEnd(w: Writer, o: Opener)
    ensures WriteEnd(WriteOpen(w, o)).indent == w.indent
    ensures WriteEnd(WriteOpen(w, o)).functionLevel == w.functionLevel
    ensures WriteEnd(WriteOpen(w, o)).blockLevel == w.blockLevel
    ensures WriteEnd(WriteOpen(w, o)).out == w.out + [Line(w.indent, HeaderText(o)), Line(w.indent, "end")]
  {
  }

  /** `WriteL` followed by `WriteR` restores every level and puts `}` under `{`. */
  lemma OpenThenCloseTable(w: Writer)
    ensures SameLevels(WriteR(WriteL(w)), w)
    ensures WriteR(WriteL(w)).out == w.out + [Line(w.indent, "{"), Line(w.indent, "}")]
  {
  }

  // ---------------------------------------------------------------------
  // Class scaffolding

  /** The `new(...)` factory of a class table: creates `obj`, links it to the
      class as metatable, copies every member and calls `constructor` when
      that key is met. Levels are restored, the self level drops by up to
      three and never below zero, and the text has one `return obj;` and
      three `end` lines, each aligned with the header it closes. */
  function WriteClassNew(w: Writer, classname: string): (r: Writer)
    ensures SameLevels(w, r)
    ensures r.selfLevel == if w.selfLevel >= 3 then w.selfLevel - 3 else if w.selfLevel > 0 then 0 else w.selfLevel
    ensures r.out == w.out
      + [Line(w.indent, HeaderText(FunctionHeader(["..."], "new")))]
      + [Line(w.indent + 3, "local obj = {};")]
      + [Line(w.indent + 3, "setmetatable(obj, self);")]
      + [Line(w.indent + 3, "obj.__index = self;")]
      + [Line(w.indent + 3, HeaderText(ForPairsHeader("v", classname)))]
      + [Line(w.indent + 6, "obj[v_index] = v;")]
      + [Line(w.indent + 6, HeaderText(IfHeader("v_index == \"constructor\"")))]
      + [Line(w.indent + 9, "v(obj, ...);")]
      + [Line(w.indent + 6, "end")]
      + [Line(w.indent + 3, "end")]
      + [Line(w.indent + 3, "return obj;")]
      + [Line(w.indent, "end")]
  {
    var w1 := WriteOpen(w, FunctionHeader(["..."], "new"));
    var w2 := AppendLine(w1, "local obj = {};");
    var w3 := AppendLine(w2, "setmetatable(obj, self);");
    var w4 := AppendLine(w3, "obj.__index = self;");
    var w5 := WriteOpen(w4, ForPairsHeader("v", classname));
    var w6 := AppendLine(w5, "obj[v_index] = v;");
    var w7 := WriteOpen(w6, IfHeader("v_index == \"constructor\""));
    var w8 := AppendLine(w7, "v(obj, ...);");
    var w9 := WriteEnd(w8);
    var w10 := WriteEnd(w9);
    var w11 := AppendLine(w10, "return obj;");
    WriteEnd(w11)
  }

  /** What follows a class's members: the factory, a separator, the closing
      `}` and the separator of an enclosing table. */
  function WriteClassEnd(w: Writer, classname: string): (r: Writer)
    requires w.indent >= IndentLevel
    ensures r.indent == w.indent - IndentLevel && r.blockLevel == w.blockLevel - 1
    ensures r.functionLevel == w.functionLevel
    ensures 0 <= w.selfLevel ==> 0 <= r.selfLevel <= w.selfLevel
    ensures w.out <= r.out
    ensures EndsWith(r.out, [Line(r.indent, "}")] + (if InsideBlock(r) then [Line(r.indent, ",")] else []))
  {
    var withNew := WriteSep(WriteClassNew(w, classname));
    var closed := WriteR(withNew);
    var r := WriteSep(closed);
    assert r.out == withNew.out + ([Line(r.indent, "}")] + (if InsideBlock(r) then [Line(r.indent, ",")] else []));
    r
  }

  // ---------------------------------------------------------------------
  // Ancestor path

  /** The names of the class declarations among `ancestors` (listed parent
      first), outermost first: walking the ancestors and reversing. */
  function GetAncestorPath(ancestors: seq<Ancestor>): (path: seq<string>)
    ensures |path| <= |ancestors|
    ensures forall n :: n in path <==> ClassAncestor(n) in ancestors
    ensures path == [] <==> forall a <- ancestors :: !a.ClassAncestor?
  {
    if |ancestors| == 0 then []
    else
      var outer := GetAncestorPath(ancestors[1..]);
      assert ancestors == [ancestors[0]] + ancestors[1..];
      if ancestors[0].ClassAncestor? then outer + [ancestors[0].className] else outer
  }

  /** The classes enclosing an outer chain of ancestors come before those of
      the inner part: the path runs from the outermost class inwards. */
  lemma {:induction false} AncestorPathOuterFirst(inner: seq<Ancestor>, outer: seq<Ancestor>)
    ensures GetAncestorPath(inner + outer) == GetAncestorPath(outer) + GetAncestorPath(inner)
  {
    if |inner| == 0 {
      assert inner + outer == outer;
    } else {
      assert (inner + outer)[1..] == inner[1..] + outer;
      AncestorPathOuterFirst(inner[1..], outer);
    }
  }

  /** The path written as a dotted qualifier, `string.Join('.', path)`. */
  function PathText(ancestors: seq<Ancestor>): string
  {
    Join(GetAncestorPath(ancestors), ".")
  }

  // ---------------------------------------------------------------------
  // Single-line templates

  function WriteTableSep(w: Writer): (r: Writer)
    ensures SameLevels(w, r) && r.selfLevel == w.selfLevel
    ensures r.out == w.out + [Line(w.indent, ",")]
  {
    assert GetIndent(w) + ",\n" == Spaces(w.indent) + "," + NewLine;
    w.(out := w.out + [GetIndent(w) + ",\n"])
  }

  /** A table-field separator, written only inside a table. */
  function WriteSep(w: Writer): (r: Writer)
    ensures SameLevels(w, r) && r.selfLevel == w.selfLevel
    ensures InsideBlock(w) ==> r.out == w.out + [Line(w.indent, ",")]
    ensures !InsideBlock(w) ==> r == w
  {
    if InsideBlock(w) then WriteTableSep(w) else w
  }

  function WriteTableVariable(w: Writer, name: string, value: string): (r: Writer)
    ensures SameLevels(w, r) && r.selfLevel == w.selfLevel
    ensures r.out == w.out + [Line(w.indent, name + " = " + value + ",")]
  {
    AppendLine(w, name + " = " + value + ",")
  }

  function WriteVariable(w: Writer, name: string, value: string): (r: Writer)
    ensures SameLevels(w, r) && r.selfLevel == w.selfLevel
    ensures r.out == w.out + [Line(w.indent, name + " = " + value + ";")]
  {
    AppendLine(w, name + " = " + value + ";")
  }

  function WriteFunctionVariable(w: Writer, name: string, value: string): (r: Writer)
    ensures SameLevels(w, r) && r.selfLevel == w.selfLevel
    ensures r.out == w.out + [Line(w.indent, "local " + name + " = " + value + ";")]
  {
    AppendLine(w, "local " + name + " = " + value + ";")
  }

  /** `left op right` on the current line, without indentation or line break. */
  function WriteBinary(w: Writer, op: string, left: string, right: string): (r: Writer)
    ensures SameLevels(w, r) && r.selfLevel == w.selfLevel
    ensures r.out == w.out + [left + " " + op + " " + right]
  {
    w.(out := w.out + [left + " " + op + " " + right])
  }

  function WriteAssignment(w: Writer, text: string): (r: Writer)
    ensures SameLevels(w, r) && r.selfLevel == w.selfLevel
    ensures r.out == w.out + [Line(w.indent, text)]
  {
    AppendLine(w, text)
  }

  function WriteElse(w: Writer): (r: Writer)
    ensures SameLevels(w, r) && r.selfLevel == w.selfLevel
    ensures r.out == w.out + [Line(w.indent, "else")]
  {
    AppendLine(w, "else")
  }

  function WriteComment(w: Writer, comment: string): (r: Writer)
    ensures SameLevels(w, r) && r.selfLevel == w.selfLevel
    ensures r.out == w.out + [Line(w.indent, "--" + comment)]
  {
    AppendLine(w, "--" + comment)
  }

  function CallFunction(w: Writer, name: string, args: seq<string>): (r: Writer)
    ensures SameLevels(w, r) && r.selfLevel == w.selfLevel
    ensures r.out == w.out + [Line(w.indent, name + "(" + Join(args, ", ") + ");")]
  {
    AppendLine(w, name + "(" + Join(args, ", ") + ");")
  }
}

=== FILE: program.dfy ===
/** The driver: register the two libraries, activate one per `using`
    directive, normalise the tree, generate the Lua text and finish with a
    call of the entry point. Reading the source file, parsing it and
    printing the result are left to the caller: the model starts from the
    parsed unit and ends with the writer. */
module Program {
  import opened Wrappers
  import opened Strings
  import opened Syntax
  import opened LuaWriter
  import opened Libraries
  import SyntaxRewriter
  import CodeGen

  /** The registry after the two `LibraryDict.Add` calls. */
  const ShippedRegistry: Registry := map["Console" := ConsoleLibrary, "Roblox" := RobloxLibrary]

  /** Registering `Console` and then `Roblox` in an empty dictionary cannot
      fail and yields exactly the shipped registry. */
  lemma RegistrySetUp()
    ensures Register(map[], "Console", ConsoleLibrary).Success?
    ensures Register(Register(map[], "Console", ConsoleLibrary).value, "Roblox", RobloxLibrary)
      == Success(ShippedRegistry)
  {
    var first := Register(map[], "Console", ConsoleLibrary);
    assert "Roblox" !in first.value by { assert first.value.Keys == {"Console"}; }
  }

  /** The comment written for a `using` that names no registered library. */
  const UnableToUse: string := "Unable to use library."

  /** The libraries in use and the writer after some `using` directives. */
  datatype Activation = Activation(inUse: seq<Library>, w: Writer)

  /** One turn of the activation loop: a registered name has its library
      announce itself and join `InUse`; the dictionary's missing-key
      exception is caught and turned into a comment. */
  function ActivateOne(name: string, registry: Registry, a: Activation): (r: Activation)
    ensures name in registry ==> r.inUse == Use(a.inUse, registry[name])
    ensures name !in registry ==> r.inUse == a.inUse
    ensures name !in registry ==> r.w.out == a.w.out + [Line(a.w.indent, "--" + UnableToUse)]
    ensures SameLevels(a.w, r.w) && r.w.selfLevel == a.w.selfLevel && a.w.out <= r.w.out
  {
    if name in registry then
      var lib := registry[name];
      Activation(Use(a.inUse, lib), Call(lib, a.w))
    else Activation(a.inUse, WriteComment(a.w, UnableToUse))
  }

  /** `foreach (var node in root.Usings)`, in order. */
  function Activate(usings: seq<string>, registry: Registry, a: Activation): (r: Activation)
    ensures SameLevels(a.w, r.w) && r.w.selfLevel == a.w.selfLevel && a.w.out <= r.w.out
    decreases usings
  {
    if |usings| == 0 then a
    else Activate(usings[1..], registry, ActivateOne(usings[0], registry, a))
  }

  /** The libraries the directives name, in the order they are named,
      repeats included; unknown names are skipped. */
  function Named(usings: seq<string>, registry: Registry): (r: seq<Library>)
    ensures |r| <= |usings|
    ensures forall i | 0 <= i < |r| :: r[i] in registry.Values
  {
    if |usings| == 0 then []
    else if usings[0] in registry then [registry[usings[0]]] + Named(usings[1..], registry)
    else Named(usings[1..], registry)
  }

  /** Activation adds exactly the named libraries to `InUse`, in order. */
  lemma {:induction false} ActivateInUse(usings: seq<string>, registry: Registry, a: Activation)
    ensures Activate(usings, registry, a).inUse == a.inUse + Named(usings, registry)
    decreases usings
  {
    if |usings| > 0 {
      ActivateInUse(usings[1..], registry, ActivateOne(usings[0], registry, a));
    }
  }

  /** With the shipped registry every library in use is a shipped one, so
      the callee renaming is the chain `ShippedChain` describes. */
  lemma ActivateShipped(usings: seq<string>, a: Activation)
    requires Shipped(a.inUse)
    ensures Shipped(Activate(usings, ShippedRegistry, a).inUse)
  {
    ActivateInUse(usings, ShippedRegistry, a);
    var r := a.inUse + Named(usings, ShippedRegistry);
    forall i | 0 <= i < |r| ensures !r[i].InterfaceDefaults? {
      if i >= |a.inUse| {
        var named := Named(usings, ShippedRegistry);
        assert r[i] == named[i - |a.inUse|];
        assert r[i] in ShippedRegistry.Values;
      }
    }
  }

  /** The comment a directive leaves: the banner of the library it names,
      or the failure message. */
  function ActivationLine(name: string, indent: nat): (r: string)
  {
    Line(indent, "--" + (if name == "Console" then ConsoleBanner
                         else if name == "Roblox" then RobloxBanner
                         else UnableToUse))
  }

  function ActivationLines(usings: seq<string>, indent: nat): (r: seq<string>)
    ensures |r| == |usings|
    ensures forall i | 0 <= i < |usings| :: r[i] == ActivationLine(usings[i], indent)
  {
    seq(|usings|, i requires 0 <= i < |usings| => ActivationLine(usings[i], indent))
  }

  /** With the shipped registry each directive writes exactly one comment
      line, in the order of the directives. */
  lemma {:induction false} ActivateLines(usings: seq<string>, a: Activation)
    ensures Activate(usings, ShippedRegistry, a).w.out == a.w.out + ActivationLines(usings, a.w.indent)
    decreases usings
  {
    if |usings| > 0 {
      var next := ActivateOne(usings[0], ShippedRegistry, a);
      assert next.w.out == a.w.out + [ActivationLine(usings[0], a.w.indent)];
      ActivateLines(usings[1..], next);
      assert ActivationLines(usings, a.w.indent)
        == [ActivationLine(usings[0], a.w.indent)] + ActivationLines(usings[1..], a.w.indent);
    } else {
      assert ActivationLines(usings, a.w.indent) == [];
    }
  }

  /** The last line: the entry point's path and `();`, without indentation;
      with no entry point the C# concatenation of `null` leaves only `();`. */
  function EntryLine(entryPoint: Option<string>): (r: string)
    ensures entryPoint.None? ==> r == "();" + NewLine
    ensures entryPoint.Some? ==> r == entryPoint.value + "();" + NewLine
  {
    entryPoint.GetOr("") + "();" + NewLine
  }

  /** Why a run ends without output: the normaliser's object-creation or
      cast rule dereferences a failed `as` cast of the node's type, or the
      code generator adds a name twice. Neither exception is caught. */
  datatype TranslateError = UnsupportedType | Generation(error: CodeGen.GenError)

  /** The whole translation of a parsed unit, as the writer's pieces: the
      activation comments, the code generator's output on the normalised
      tree, and the entry-point call. */
  function Translate(unit: CompilationUnit): (r: Result<Writer, TranslateError>)
    requires WellFormedMembers(unit.members)
    ensures r == Failure(UnsupportedType) <==> !SyntaxRewriter.RewritableUnit(unit)
    ensures r.Success? ==> ActivationLines(unit.usings, 0) <= r.value.out
    ensures r.Success? ==> |r.value.out| > |unit.usings|
    ensures r.Success? ==> exists entry :: r.value.out[|r.value.out| - 1] == EntryLine(entry)
    ensures SyntaxRewriter.RewritableUnit(unit) ==>
      var act := Activate(unit.usings, ShippedRegistry, Activation([], Fresh));
      var rewritten := SyntaxRewriter.RewriteUnit(unit, act.inUse, act.w);
      var gen := CodeGen.VisitUnit(rewritten.node, CodeGen.Begin(rewritten.w));
      && (gen.Failure? ==> r == Failure(Generation(gen.error)))
      && (gen.Success? ==> r.Success? && r.value.out == gen.value.w.out + [EntryLine(gen.value.entryPoint)])
  {
    if !SyntaxRewriter.RewritableUnit(unit) then Failure(UnsupportedType)
    else
      var act := Activate(unit.usings, ShippedRegistry, Activation([], Fresh));
      var rewritten := SyntaxRewriter.RewriteUnit(unit, act.inUse, act.w);
      var gen := CodeGen.VisitUnit(rewritten.node, CodeGen.Begin(rewritten.w));
      if gen.Failure? then Failure(Generation(gen.error))
      else
        var st := gen.value;
        ActivateLines(unit.usings, Activation([], Fresh));
        var r := AppendRaw(st.w, EntryLine(st.entryPoint));
        assert r.out[|r.out| - 1] == EntryLine(st.entryPoint);
        Success(r)
  }

  /** `class A { void M() { var y = (Foo)x; } }`: the cast rule throws on a
      user type, so the run ends without output. */
  lemma UserTypeCastFails()
    ensures var cast := Cast(OtherKeyword("Foo"), IdentifierName("x", false), false);
      var decl := VariableDeclaration("var", [Declarator("y", Some(EqualsValue("=", cast)))], true);
      var unit := CompilationUnit([], [Class("A", [Method("M", [], Block([LocalDeclaration(decl)]))])]);
      WellFormedMembers(unit.members) && Translate(unit) == Failure(UnsupportedType)
  {
    var cast := Cast(OtherKeyword("Foo"), IdentifierName("x", false), false);
    var decl := VariableDeclaration("var", [Declarator("y", Some(EqualsValue("=", cast)))], true);
    var body := Block([LocalDeclaration(decl)]);
    var m := Method("M", [], body);
    var unit := CompilationUnit([], [Class("A", [m])]);
    assert WellFormedStmt(body) by { assert WellFormedStmt(body.statements[0]); }
    assert WellFormedMember(unit.members[0]) by { assert WellFormedMember(m); }
    assert !SyntaxRewriter.Rewritable(cast) by { assert "Foo" !in SyntaxRewriter.PredefinedTypeKeywords; }
    assert ToText(cast) != "null" by { assert ToText(cast)[0] == '('; }
    assert !SyntaxRewriter.RewritableInitializers(decl.variables) by {
      assert decl.variables[0].initializer.value.value == cast;
    }
    assert !SyntaxRewriter.RewritableStmt(body) by { assert !SyntaxRewriter.RewritableStmt(body.statements[0]); }
    assert !SyntaxRewriter.RewritableUnit(unit) by {
      assert !SyntaxRewriter.RewritableMember(m);
      assert unit.members[0].members[0] == m;
    }
  }

  /** The tree the driver hands to the code generator is a normal form of
      the normaliser: the libraries a run activates are shipped ones, so
      normalising that tree again would give it back unchanged. */
  lemma NormalisedTreeIsNormalForm(unit: CompilationUnit, w: Writer)
    requires forall i | 0 <= i < |unit.members| :: SyntaxRewriter.PlainCreationsMember(unit.members[i])
    ensures var act := Activate(unit.usings, ShippedRegistry, Activation([], Fresh));
      var once := SyntaxRewriter.RewriteUnit(unit, act.inUse, act.w).node;
      SyntaxRewriter.RewriteUnit(once, act.inUse, w).node == once
  {
    var act := Activate(unit.usings, ShippedRegistry, Activation([], Fresh));
    ActivateShipped(unit.usings, Activation([], Fresh));
    SyntaxRewriter.RewriteUnitIdempotent(unit, act.inUse, act.w, w);
  }

  /** In particular, on every unit the normaliser does not throw on, its
      result is a normal form. */
  lemma TranslatedTreeIsNormalForm(unit: CompilationUnit, w: Writer)
    requires SyntaxRewriter.RewritableUnit(unit)
    ensures var act := Activate(unit.usings, ShippedRegistry, Activation([], Fresh));
      var once := SyntaxRewriter.RewriteUnit(unit, act.inUse, act.w).node;
      SyntaxRewriter.RewriteUnit(once, act.inUse, w).node == once
  {
    forall i | 0 <= i < |unit.members| ensures SyntaxRewriter.PlainCreationsMember(unit.members[i]) {
      SyntaxRewriter.RewritableMemberIsPlain(unit.members[i]);
    }
    NormalisedTreeIsNormalForm(unit, w);
  }

  /** `sb.AppendLine(text)` for text that carries its own newline and no
      indentation. */
  function AppendRaw(w: Writer, line: string): (r: Writer)
    ensures r.out == w.out + [line]
  {
    w.(out := w.out + [line])
  }

  /** A unit with nothing in it translates to the single line `();`. */
  lemma EmptyUnit()
    ensures Translate(CompilationUnit([], [])).Success?
    ensures Text(Translate(CompilationUnit([], [])).value) == "();" + NewLine
  {
    var r := Translate(CompilationUnit([], [])).value;
    assert r.out == [EntryLine(None)];
    assert Concat(r.out) == EntryLine(None) + Concat([]);
  }
}

=== FILE: strings.dfy ===
/** String operations the translator borrows from .NET: `new string(' ', n)`,
    `string.Join`, the first and last piece of `Split(c)`, and `Replace`.
    Each is given the characterisation its callers rely on. */
module Strings {

  /** `new string(' ', n)`: exactly `n` blanks. */
  function Spaces(n: nat): (r: string)
    ensures |r| == n
    ensures forall i :: 0 <= i < |r| ==> r[i] == ' '
  {
    if n == 0 then "" else Spaces(n - 1) + " "
  }

  /** `string.Join(sep, parts)`. */
  function Join(parts: seq<string>, sep: string): string
  {
    if |parts| == 0 then ""
    else if |parts| == 1 then parts[0]
    else parts[0] + sep + Join(parts[1..], sep)
  }

  /** Joining one more part at the end puts one separator before it. */
  lemma {:induction false} JoinSnoc(parts: seq<string>, last: string, sep: string)
    requires |parts| > 0
    ensures Join(parts + [last], sep) == Join(parts, sep) + sep + last
  {
    if |parts| == 1 {
      assert (parts + [last])[1..] == [last];
    } else {
      assert (parts + [last])[1..] == parts[1..] + [last];
      JoinSnoc(parts[1..], last, sep);
    }
  }

  /** `s.Split(c).First()`: the text before the first `c`, or all of `s`. */
  function FirstSegment(s: string, c: char): (r: string)
    ensures r <= s
    ensures c !in r
    ensures |r| < |s| ==> s[|r|] == c
  {
    if |s| == 0 || s[0] == c then "" else [s[0]] + FirstSegment(s[1..], c)
  }

  /** `s.Split(c).Last()`: the text after the last `c`, or all of `s`. */
  function LastSegment(s: string, c: char): (r: string)
    ensures |r| <= |s| && r == s[|s| - |r|..]
    ensures c !in r
    ensures |r| < |s| ==> s[|s| - |r| - 1] == c
  {
    if |s| == 0 || s[|s| - 1] == c then ""
    else LastSegment(s[..|s| - 1], c) + [s[|s| - 1]]
  }

  /** `s` ends with `suffix`. */
  predicate EndsWith<T(==)>(s: seq<T>, suffix: seq<T>)
  {
    |suffix| <= |s| && s[|s| - |suffix|..] == suffix
  }

  /** The pieces written one after another. */
  function Concat(pieces: seq<string>): (r: string)
    ensures |pieces| == 0 ==> r == ""
  {
    if |pieces| == 0 then "" else pieces[0] + Concat(pieces[1..])
  }

  /** Concatenation distributes over joining two runs of pieces. */
  lemma {:induction false} ConcatAppend(a: seq<string>, b: seq<string>)
    ensures Concat(a + b) == Concat(a) + Concat(b)
  {
    if |a| > 0 {
      assert (a + b)[1..] == a[1..] + b;
      ConcatAppend(a[1..], b);
    } else {
      assert a + b == b;
    }
  }

  /** Two appends in a row are one append of both parts. */
  lemma AppendTwice<T>(a: seq<T>, b: seq<T>, c: seq<T>, x: seq<T>, y: seq<T>)
    requires b == a + x && c == b + y
    ensures c == a + (x + y)
  {
  }

  /** `pat` occurs in `s` starting at index `i`. */
  predicate OccursAt(s: string, pat: string, i: nat)
  {
    i + |pat| <= |s| && s[i..i + |pat|] == pat
  }

  predicate Contains(s: string, pat: string)
  {
    exists i: nat | i <= |s| :: OccursAt(s, pat, i)
  }

  /** `s.Replace(pat, rep)`: a left-to-right scan that replaces every
      non-overlapping occurrence of `pat` (.NET refuses an empty `pat`). */
  function ReplaceAll(s: string, pat: string, rep: string): string
    requires |pat| > 0
    decreases |s|
  {
    if |s| < |pat| then s
    else if s[..|pat|] == pat then rep + ReplaceAll(s[|pat|..], pat, rep)
    else [s[0]] + ReplaceAll(s[1..], pat, rep)
  }

  /** A replacement as long as the pattern keeps the length. */
  lemma {:induction false} ReplaceAllLength(s: string, pat: string, rep: string)
    requires |pat| > 0 && |rep| == |pat|
    ensures |ReplaceAll(s, pat, rep)| == |s|
    decreases |s|
  {
    if |s| < |pat| {
    } else if s[..|pat|] == pat {
      ReplaceAllLength(s[|pat|..], pat, rep);
    } else {
      ReplaceAllLength(s[1..], pat, rep);
    }
  }

  /** Without an occurrence of `pat` nothing is replaced. */
  lemma {:induction false} ReplaceAllAbsent(s: string, pat: string, rep: string)
    requires |pat| > 0
    requires !Contains(s, pat)
    ensures ReplaceAll(s, pat, rep) == s
    decreases |s|
  {
    if |s| < |pat| {
    } else {
      assert !OccursAt(s, pat, 0);
      assert s[..|pat|] != pat;
      forall i: nat | i <= |s[1..]|
        ensures !OccursAt(s[1..], pat, i)
      {
        assert !OccursAt(s, pat, i + 1);
        if i + |pat| <= |s[1..]| {
          assert s[1..][i..i + |pat|] == s[i + 1..i + 1 + |pat|];
        }
      }
      ReplaceAllAbsent(s[1..], pat, rep);
    }
  }
}

=== FILE: syntax.dfy ===
/** The part of the C# syntax tree the translator reads, as immutable values.

    Nodes keep their kind, their identifier and literal texts, and whether
    their first token carries leading trivia. A node's text (`ToString()` in
    the original) is rendered canonically from its parts by `ToText`: one
    blank on each side of a binary or assignment operator and ", " between
    arguments. */
module Syntax {
  import opened Wrappers
  import opened Strings

  /** The token kinds the normaliser distinguishes for a binary operator. */
  datatype TokenKind =
    | PlusToken
    | ExclamationEqualsToken
    | BarBarToken
    | AmpersandAmpersandToken
    | OtherOperatorToken

  /** A token keeps its kind even when its text is replaced. */
  datatype Token = Token(kind: TokenKind, text: string)

  datatype LiteralKind = StringLiteral | OtherLiteral

  /** The keyword of a predefined type used as a cast target. */
  datatype PredefinedType = IntKeyword | StringKeyword | OtherKeyword(keyword: string)

  datatype Expr =
    | IdentifierName(identifier: string, leading: bool)
    | MemberAccess(target: Expr, member: string)
    | Literal(literalKind: LiteralKind, text: string, leading: bool)
    | This(keyword: string, leading: bool)
    | Binary(left: Expr, op: Token, right: Expr)
    | Cast(castType: PredefinedType, operand: Expr, leading: bool)
    | ObjectCreation(typeName: string, arguments: seq<Expr>, leading: bool)
    | Invocation(callee: Expr, arguments: seq<Expr>)
    | Assignment(assignee: Expr, assignOp: string, assignedValue: Expr)
    | Parenthesized(inner: Expr, leading: bool)
      /** Any other expression kind: element access, generic name, lambda, ... */
    | OtherExpression(kindName: string, text: string, leading: bool)

  /** `node.HasLeadingTrivia`: the leading trivia of the node's first token. */
  function HasLeadingTrivia(e: Expr): bool
  {
    match e
    case IdentifierName(_, leading) => leading
    case MemberAccess(target, _) => HasLeadingTrivia(target)
    case Literal(_, _, leading) => leading
    case This(_, leading) => leading
    case Binary(left, _, _) => HasLeadingTrivia(left)
    case Cast(_, _, leading) => leading
    case ObjectCreation(_, _, leading) => leading
    case Invocation(callee, _) => HasLeadingTrivia(callee)
    case Assignment(assignee, _, _) => HasLeadingTrivia(assignee)
    case Parenthesized(_, leading) => leading
    case OtherExpression(_, _, leading) => leading
  }

  function TypeText(t: PredefinedType): string
  {
    match t
    case IntKeyword => "int"
    case StringKeyword => "string"
    case OtherKeyword(k) => k
  }

  /** The node's text without its outer trivia. */
  function ToText(e: Expr): string
    decreases e
  {
    match e
    case IdentifierName(n, _) => n
    case MemberAccess(target, m) => ToText(target) + "." + m
    case Literal(_, text, _) => text
    case This(keyword, _) => keyword
    case Binary(l, op, r) => ToText(l) + " " + op.text + " " + ToText(r)
    case Cast(t, x, _) => "(" + TypeText(t) + ")" + ToText(x)
    case ObjectCreation(t, args, _) => "new " + t + "(" + Join(ArgumentTexts(args), ", ") + ")"
    case Invocation(callee, args) => ToText(callee) + "(" + Join(ArgumentTexts(args), ", ") + ")"
    case Assignment(l, op, r) => ToText(l) + " " + op + " " + ToText(r)
    case Parenthesized(x, _) => "(" + ToText(x) + ")"
    case OtherExpression(_, text, _) => text
  }

  /** The text of every argument, in order. */
  function ArgumentTexts(args: seq<Expr>): (r: seq<string>)
    ensures |r| == |args|
    decreases args
  {
    if |args| == 0 then [] else [ToText(args[0])] + ArgumentTexts(args[1..])
  }

  /** The name of the Roslyn class of the node, as `GetType().Name` reports it. */
  function KindName(e: Expr): string
  {
    match e
    case IdentifierName(_, _) => "IdentifierNameSyntax"
    case MemberAccess(_, _) => "MemberAccessExpressionSyntax"
    case Literal(_, _, _) => "LiteralExpressionSyntax"
    case This(_, _) => "ThisExpressionSyntax"
    case Binary(_, _, _) => "BinaryExpressionSyntax"
    case Cast(_, _, _) => "CastExpressionSyntax"
    case ObjectCreation(_, _, _) => "ObjectCreationExpressionSyntax"
    case Invocation(_, _) => "InvocationExpressionSyntax"
    case Assignment(_, _, _) => "AssignmentExpressionSyntax"
    case Parenthesized(_, _) => "ParenthesizedExpressionSyntax"
    case OtherExpression(kind, _, _) => kind
  }

  /** `= value`; `equalsToken` is the `=` with whatever trivia it carries. */
  datatype Initializer = EqualsValue(equalsToken: string, value: Expr)

  function InitializerText(i: Initializer): string
  {
    i.equalsToken + ToText(i.value)
  }

  datatype Declarator = Declarator(name: string, initializer: Option<Initializer>)

  /** `Type a = 1, b;`. `leading` is the leading trivia of the type token. */
  datatype VariableDeclaration = VariableDeclaration(typeName: string, variables: seq<Declarator>, leading: bool)

  datatype Stmt =
    | ExpressionStatement(expr: Expr)
    | LocalDeclaration(declaration: VariableDeclaration)
    | Block(statements: seq<Stmt>)
    | If(condition: Expr, thenBranch: Stmt, elseBranch: Option<Stmt>)
    | While(condition: Expr, body: Stmt)
    | For(declaration: VariableDeclaration, condition: Expr, incrementors: seq<Expr>, body: Stmt)
    | ForEach(elementType: string, identifier: string, collection: Expr, body: Stmt)
    | Return(result: Option<Expr>)
      /** `break;`, `continue;` and other statements with no expression the walker reads. */
    | OtherStatement(text: string)

  datatype Member =
    | Namespace(name: string, members: seq<Member>)
    | Class(name: string, members: seq<Member>)
    | Method(name: string, parameters: seq<string>, methodBody: Stmt)
    | Constructor(parameters: seq<string>, constructorBody: Stmt)
    | Field(field: VariableDeclaration)

  datatype CompilationUnit = CompilationUnit(usings: seq<string>, members: seq<Member>)

  /** An entry of `node.Ancestors()`, which lists the parent first: the
      declarations the walker passes through on its way down. */
  datatype Ancestor = ClassAncestor(className: string) | NamespaceAncestor | MethodAncestor | ConstructorAncestor

  /** The shape `VisitForStatement` dereferences without checks: a declaration
      whose first variable has an initializer, and a binary condition. */
  predicate ForShape(declaration: VariableDeclaration, condition: Expr)
  {
    |declaration.variables| > 0 && declaration.variables[0].initializer.Some? && condition.Binary?
  }

  /** Every `for` statement in `s` has the shape the code generator needs. */
  predicate WellFormedStmt(s: Stmt)
    decreases s
  {
    match s
    case Block(ss) => forall i | 0 <= i < |ss| :: WellFormedStmt(ss[i])
    case If(_, t, e) => WellFormedStmt(t) && (e.Some? ==> WellFormedStmt(e.value))
    case While(_, body) => WellFormedStmt(body)
    case For(d, c, _, body) => ForShape(d, c) && WellFormedStmt(body)
    case ForEach(_, _, _, body) => WellFormedStmt(body)
    case _ => true
  }

  predicate WellFormedMember(m: Member)
    decreases m
  {
    match m
    case Namespace(_, ms) => forall i | 0 <= i < |ms| :: WellFormedMember(ms[i])
    case Class(_, ms) => forall i | 0 <= i < |ms| :: WellFormedMember(ms[i])
    case Method(_, _, body) => WellFormedStmt(body)
    case Constructor(_, body) => WellFormedStmt(body)
    case Field(_) => true
  }

  predicate WellFormedMembers(ms: seq<Member>)
  {
    forall i | 0 <= i < |ms| :: WellFormedMember(ms[i])
  }
}

=== FILE: syntax_rewriter.dfy ===
/** The normaliser: a rewrite of the C# tree into Lua spellings, run once
    before the code generator. Each rule replaces the node it matches and
    does not look inside it, except that a binary node visits its operands
    first and then keeps the originals. Naming a callee may leave a comment
    in the output, so the writer is threaded through the rewrite. */
module SyntaxRewriter {
  import opened Wrappers
  import opened Strings
  import opened Syntax
  import opened LuaWriter
  import opened Libraries
  import CodeGen

  /** A rewritten node with the writer after its rewrite. */
  datatype Rewritten<T> = Rewritten(node: T, w: Writer)

  /** The rewrite only appends comments: levels are untouched. */
  predicate Appends(a: Writer, b: Writer)
  {
    SameLevels(a, b) && b.selfLevel == a.selfLevel && a.out <= b.out
  }

  // ---------------------------------------------------------------------
  // The rules

  /** `a + b` with a string literal on the left is a concatenation. */
  predicate IsConcatenation(e: Expr)
    requires e.Binary?
  {
    e.left.Literal? && e.left.literalKind == StringLiteral && e.op.kind == PlusToken
  }

  /** The Lua spelling of an operator token kind, where there is one. */
  function LuaOperator(kind: TokenKind): Option<string>
  {
    match kind
    case ExclamationEqualsToken => Some("~=")
    case BarBarToken => Some("or")
    case AmpersandAmpersandToken => Some("and")
    case _ => None
  }

  /** The binary rule: a concatenation is spelled `..`, checked first; then
      `!=`, `||` and `&&` are respelled; any other node comes back as it was.
      The operands are the original ones and the token keeps its kind. */
  function BinaryRule(e: Expr): (r: Expr)
    requires e.Binary?
    ensures r.Binary? && r.left == e.left && r.right == e.right && r.op.kind == e.op.kind
    ensures IsConcatenation(e) ==> r.op.text == ".."
    ensures !IsConcatenation(e) && LuaOperator(e.op.kind).Some? ==> r.op.text == LuaOperator(e.op.kind).value
    ensures !IsConcatenation(e) && LuaOperator(e.op.kind).None? ==> r == e
  {
    if IsConcatenation(e) then Binary(e.left, Token(PlusToken, ".."), e.right)
    else match LuaOperator(e.op.kind)
      case Some(text) => Binary(e.left, Token(e.op.kind, text), e.right)
      case None => e
  }

  /** `(int)x` and `(string)x` become calls of `tonumber` and `tostring` on
      the operand as it was, without leading trivia; other casts are kept. */
  function CastRule(e: Expr): (r: Expr)
    requires e.Cast?
    ensures e.castType.IntKeyword? ==> r == Invocation(IdentifierName("tonumber", false), [e.operand])
    ensures e.castType.StringKeyword? ==> r == Invocation(IdentifierName("tostring", false), [e.operand])
    ensures e.castType.OtherKeyword? ==> r == e
    ensures !e.castType.OtherKeyword? ==> !HasLeadingTrivia(r)
  {
    match e.castType
    case IntKeyword => Invocation(IdentifierName("tonumber", false), [e.operand])
    case StringKeyword => Invocation(IdentifierName("tostring", false), [e.operand])
    case OtherKeyword(_) => e
  }

  /** The invocation rule: the callee becomes a plain name, `GetMethodName`'s
      answer folded through the libraries in use; the arguments are reused as
      they are and the leading trivia is kept exactly when the call had it. */
  function InvocationRule(e: Expr, inUse: seq<Library>, w: Writer): (r: Rewritten<Expr>)
    requires e.Invocation?
    ensures r.node.Invocation? && r.node.callee.IdentifierName? && r.node.arguments == e.arguments
    ensures r.node.callee.identifier == TranslateName(inUse, CodeGen.GetMethodName(e.callee, w).name)
    ensures HasLeadingTrivia(r.node) == HasLeadingTrivia(e)
    ensures r.w == CodeGen.GetMethodName(e.callee, w).w && Appends(w, r.w)
  {
    var named := CodeGen.GetMethodName(e.callee, w);
    Rewritten(Invocation(IdentifierName(TranslateName(inUse, named.name), HasLeadingTrivia(e)), e.arguments), named.w)
  }

  // ---------------------------------------------------------------------
  // The walk

  function RewriteExpr(e: Expr, inUse: seq<Library>, w: Writer): (r: Rewritten<Expr>)
    ensures Appends(w, r.w)
    ensures e.ObjectCreation? ==>
      r == Rewritten(Invocation(IdentifierName(e.typeName + ".new", false), e.arguments), w)
    ensures e.Cast? ==> r == Rewritten(CastRule(e), w)
    ensures e.This? ==> r.node == This("self", e.leading) && r.w == w
    ensures e.Binary? ==> r.node == BinaryRule(e)
    ensures e.Invocation? ==> r == InvocationRule(e, inUse, w)
    ensures e.IdentifierName? || e.Literal? || e.OtherExpression? ==> r == Rewritten(e, w)
    ensures e.MemberAccess? ==> r == Rewritten(MemberAccess(RewriteExpr(e.target, inUse, w).node, e.member),
                                               RewriteExpr(e.target, inUse, w).w)
    ensures e.Assignment? ==>
      var left := RewriteExpr(e.assignee, inUse, w);
      var value := RewriteExpr(e.assignedValue, inUse, left.w);
      r == Rewritten(Assignment(left.node, e.assignOp, value.node), value.w)
    ensures e.Parenthesized? ==> r == Rewritten(Parenthesized(RewriteExpr(e.inner, inUse, w).node, e.leading),
                                                RewriteExpr(e.inner, inUse, w).w)
    decreases e
  {
    match e
    case ObjectCreation(t, args, _) => Rewritten(Invocation(IdentifierName(t + ".new", false), args), w)
    case Cast(_, _, _) => Rewritten(CastRule(e), w)
    case This(_, leading) => Rewritten(This("self", leading), w)
    case Binary(l, _, r) =>
      // The operands are visited for their effect on the writer only.
      var afterLeft := RewriteExpr(l, inUse, w);
      var afterRight := RewriteExpr(r, inUse, afterLeft.w);
      Rewritten(BinaryRule(e), afterRight.w)
    case Invocation(_, _) => InvocationRule(e, inUse, w)
    case MemberAccess(target, m) =>
      var t := RewriteExpr(target, inUse, w);
      Rewritten(MemberAccess(t.node, m), t.w)
    case Assignment(l, op, v) =>
      var left := RewriteExpr(l, inUse, w);
      var value := RewriteExpr(v, inUse, left.w);
      Rewritten(Assignment(left.node, op, value.node), value.w)
    case Parenthesized(x, leading) =>
      var inner := RewriteExpr(x, inUse, w);
      Rewritten(Parenthesized(inner.node, leading), inner.w)
    case IdentifierName(_, _) => Rewritten(e, w)
    case Literal(_, _, _) => Rewritten(e, w)
    case OtherExpression(_, _, _) => Rewritten(e, w)
  }

  function RewriteExprs(es: seq<Expr>, inUse: seq<Library>, w: Writer): (r: Rewritten<seq<Expr>>)
    ensures Appends(w, r.w) && |r.node| == |es|
    decreases es
  {
    if |es| == 0 then Rewritten([], w)
    else
      var first := RewriteExpr(es[0], inUse, w);
      var rest := RewriteExprs(es[1..], inUse, first.w);
      Rewritten([first.node] + rest.node, rest.w)
  }

  /** The initializer rule: a value whose text is exactly `null` becomes
      `nil` behind a bare `=`; any other value is rewritten in place. */
  function RewriteInitializer(i: Initializer, inUse: seq<Library>, w: Writer): (r: Rewritten<Initializer>)
    ensures Appends(w, r.w)
    ensures ToText(i.value) == "null" ==> r == Rewritten(EqualsValue("=", IdentifierName("nil", true)), w)
    ensures ToText(i.value) != "null" ==>
      r.node.equalsToken == i.equalsToken && r.node.value == RewriteExpr(i.value, inUse, w).node
  {
    if ToText(i.value) == "null" then Rewritten(EqualsValue("=", IdentifierName("nil", true)), w)
    else
      var v := RewriteExpr(i.value, inUse, w);
      Rewritten(EqualsValue(i.equalsToken, v.node), v.w)
  }

  /** Declarators keep their names; an initializer stays present or absent,
      and a present one is rewritten by the initializer rule. */
  function RewriteDeclarators(vs: seq<Declarator>, inUse: seq<Library>, w: Writer): (r: Rewritten<seq<Declarator>>)
    ensures Appends(w, r.w) && |r.node| == |vs|
    ensures forall i | 0 <= i < |vs| ::
      r.node[i].name == vs[i].name && r.node[i].initializer.Some? == vs[i].initializer.Some?
    ensures forall i | 0 <= i < |vs| && vs[i].initializer.Some? ::
      r.node[i].initializer.value == RewriteInitializer(vs[i].initializer.value, inUse, w).node
    decreases vs
  {
    if |vs| == 0 then Rewritten([], w)
    else
      var v := vs[0];
      var init := if v.initializer.Some? then
                    var i := RewriteInitializer(v.initializer.value, inUse, w);
                    Rewritten(Some(i.node), i.w)
                  else Rewritten(None, w);
      RewriteInitializersNode(vs[1..], inUse, w, init.w);
      var rest := RewriteDeclarators(vs[1..], inUse, init.w);
      Rewritten([Declarator(v.name, init.node)] + rest.node, rest.w)
  }

  function RewriteDeclaration(d: VariableDeclaration, inUse: seq<Library>, w: Writer): (r: Rewritten<VariableDeclaration>)
    ensures Appends(w, r.w)
    ensures r.node.typeName == d.typeName && r.node.leading == d.leading && |r.node.variables| == |d.variables|
    ensures forall i | 0 <= i < |d.variables| ::
      r.node.variables[i].name == d.variables[i].name
      && r.node.variables[i].initializer.Some? == d.variables[i].initializer.Some?
    ensures forall i | 0 <= i < |d.variables| && d.variables[i].initializer.Some? ::
      r.node.variables[i].initializer.value == RewriteInitializer(d.variables[i].initializer.value, inUse, w).node
  {
    var vs := RewriteDeclarators(d.variables, inUse, w);
    Rewritten(VariableDeclaration(d.typeName, vs.node, d.leading), vs.w)
  }

  /** Statements are rebuilt around their rewritten parts; a well-formed
      statement stays well-formed, so the code generator can take it. */
  function RewriteStmt(s: Stmt, inUse: seq<Library>, w: Writer): (r: Rewritten<Stmt>)
    ensures Appends(w, r.w)
    ensures WellFormedStmt(s) ==> WellFormedStmt(r.node)
    decreases s
  {
    match s
    case ExpressionStatement(e) =>
      var x := RewriteExpr(e, inUse, w);
      Rewritten(ExpressionStatement(x.node), x.w)
    case LocalDeclaration(d) =>
      var x := RewriteDeclaration(d, inUse, w);
      Rewritten(LocalDeclaration(x.node), x.w)
    case Block(ss) =>
      var x := RewriteStmts(ss, inUse, w);
      Rewritten(Block(x.node), x.w)
    case If(c, t, e) =>
      var cond := RewriteExpr(c, inUse, w);
      var th := RewriteStmt(t, inUse, cond.w);
      if e.Some? then
        var el := RewriteStmt(e.value, inUse, th.w);
        Rewritten(If(cond.node, th.node, Some(el.node)), el.w)
      else Rewritten(If(cond.node, th.node, None), th.w)
    case While(c, body) =>
      var cond := RewriteExpr(c, inUse, w);
      var b := RewriteStmt(body, inUse, cond.w);
      Rewritten(While(cond.node, b.node), b.w)
    case For(d, c, incs, body) =>
      var decl := RewriteDeclaration(d, inUse, w);
      var cond := RewriteExpr(c, inUse, decl.w);
      var steps := RewriteExprs(incs, inUse, cond.w);
      var b := RewriteStmt(body, inUse, steps.w);
      Rewritten(For(decl.node, cond.node, steps.node, b.node), b.w)
    case ForEach(t, id, coll, body) =>
      var c := RewriteExpr(coll, inUse, w);
      var b := RewriteStmt(body, inUse, c.w);
      Rewritten(ForEach(t, id, c.node, b.node), b.w)
    case Return(value) =>
      if value.Some? then
        var x := RewriteExpr(value.value, inUse, w);
        Rewritten(Return(Some(x.node)), x.w)
      else Rewritten(s, w)
    case OtherStatement(_) => Rewritten(s, w)
  }

  function RewriteStmts(ss: seq<Stmt>, inUse: seq<Library>, w: Writer): (r: Rewritten<seq<Stmt>>)
    ensures Appends(w, r.w) && |r.node| == |ss|
    ensures (forall i | 0 <= i < |ss| :: WellFormedStmt(ss[i])) ==>
      forall i | 0 <= i < |ss| :: WellFormedStmt(r.node[i])
    decreases ss
  {
    if |ss| == 0 then Rewritten([], w)
    else
      var first := RewriteStmt(ss[0], inUse, w);
      var rest := RewriteStmts(ss[1..], inUse, first.w);
      assert forall i | 0 <= i < |ss[1..]| :: ss[1..][i] == ss[i + 1];
      Rewritten([first.node] + rest.node, rest.w)
  }

  function RewriteMember(m: Member, inUse: seq<Library>, w: Writer): (r: Rewritten<Member>)
    ensures Appends(w, r.w)
    ensures WellFormedMember(m) ==> WellFormedMember(r.node)
    decreases m
  {
    match m
    case Namespace(name, ms) =>
      var x := RewriteMembers(ms, inUse, w);
      Rewritten(Namespace(name, x.node), x.w)
    case Class(name, ms) =>
      var x := RewriteMembers(ms, inUse, w);
      Rewritten(Class(name, x.node), x.w)
    case Method(name, ps, body) =>
      var x := RewriteStmt(body, inUse, w);
      Rewritten(Method(name, ps, x.node), x.w)
    case Constructor(ps, body) =>
      var x := RewriteStmt(body, inUse, w);
      Rewritten(Constructor(ps, x.node), x.w)
    case Field(d) =>
      var x := RewriteDeclaration(d, inUse, w);
      Rewritten(Field(x.node), x.w)
  }

  function RewriteMembers(ms: seq<Member>, inUse: seq<Library>, w: Writer): (r: Rewritten<seq<Member>>)
    ensures Appends(w, r.w) && |r.node| == |ms|
    ensures WellFormedMembers(ms) ==> WellFormedMembers(r.node)
    decreases ms
  {
    if |ms| == 0 then Rewritten([], w)
    else
      var first := RewriteMember(ms[0], inUse, w);
      var rest := RewriteMembers(ms[1..], inUse, first.w);
      assert forall i | 0 <= i < |ms[1..]| :: ms[1..][i] == ms[i + 1];
      Rewritten([first.node] + rest.node, rest.w)
  }

  /** `sr.Visit(root)`: the usings are kept, the members rewritten. */
  function RewriteUnit(unit: CompilationUnit, inUse: seq<Library>, w: Writer): (r: Rewritten<CompilationUnit>)
    ensures Appends(w, r.w)
    ensures r.node.usings == unit.usings
    ensures WellFormedMembers(unit.members) ==> WellFormedMembers(r.node.members)
  {
    var ms := RewriteMembers(unit.members, inUse, w);
    Rewritten(CompilationUnit(unit.usings, ms.node), ms.w)
  }

  // ---------------------------------------------------------------------
  // What the rewrite writes

  /** The callees `GetMethodName` is asked about, in the order the rewrite
      reaches them: the operands of a binary node are walked although their
      rewrites are dropped, and nothing inside a call is walked. */
  function VisitedCallees(e: Expr): (r: seq<Expr>)
    decreases e
  {
    match e
    case Invocation(callee, _) => [callee]
    case Binary(l, _, r) => VisitedCallees(l) + VisitedCallees(r)
    case MemberAccess(target, _) => VisitedCallees(target)
    case Assignment(l, _, v) => VisitedCallees(l) + VisitedCallees(v)
    case Parenthesized(x, _) => VisitedCallees(x)
    case _ => []
  }

  /** The comment `GetMethodName` writes for one callee, if any. */
  function CommentFor(c: Expr, indent: nat): (r: seq<string>)
    ensures |r| <= 1
  {
    if c.IdentifierName? || c.MemberAccess? then []
    else [Line(indent, "--" + CodeGen.UnsupportedComment(c))]
  }

  /** One comment line for each callee that is neither a plain name nor a
      member access. */
  function CommentLines(callees: seq<Expr>, indent: nat): (r: seq<string>)
    ensures |r| <= |callees|
  {
    if |callees| == 0 then []
    else CommentFor(callees[0], indent) + CommentLines(callees[1..], indent)
  }

  /** Plain names and member accesses are always supported: no comment. */
  lemma {:induction false} SupportedCalleesNoComments(callees: seq<Expr>, indent: nat)
    requires forall i | 0 <= i < |callees| :: callees[i].IdentifierName? || callees[i].MemberAccess?
    ensures CommentLines(callees, indent) == []
  {
    if |callees| > 0 {
      assert forall i | 0 <= i < |callees[1..]| :: callees[1..][i] == callees[i + 1];
      SupportedCalleesNoComments(callees[1..], indent);
    }
  }

  lemma {:induction false} CommentLinesAppend(a: seq<Expr>, b: seq<Expr>, indent: nat)
    ensures CommentLines(a + b, indent) == CommentLines(a, indent) + CommentLines(b, indent)
  {
    if |a| == 0 {
      assert a + b == b;
    } else {
      assert (a + b)[0] == a[0] && (a + b)[1..] == a[1..] + b;
      CommentLinesAppend(a[1..], b, indent);
    }
  }

  /** The only text the rewrite of an expression writes is one comment per
      unsupported callee it reaches, in order, at the writer's indent. */
  lemma {:induction false} RewriteExprComments(e: Expr, inUse: seq<Library>, w: Writer)
    ensures RewriteExpr(e, inUse, w).w.out == w.out + CommentLines(VisitedCallees(e), w.indent)
    decreases e, 2
  {
    if e.Binary? {
      BinaryComments(e, inUse, w);
    } else if e.Assignment? {
      AssignmentComments(e, inUse, w);
    } else if e.MemberAccess? {
      RewriteExprComments(e.target, inUse, w);
    } else if e.Parenthesized? {
      RewriteExprComments(e.inner, inUse, w);
    } else if e.Invocation? {
      assert VisitedCallees(e) == [e.callee];
    }
  }

  /** A binary node walks both operands, though it keeps neither rewrite. */
  lemma {:induction false} BinaryComments(e: Expr, inUse: seq<Library>, w: Writer)
    requires e.Binary?
    ensures RewriteExpr(e, inUse, w).w.out == w.out + CommentLines(VisitedCallees(e), w.indent)
    decreases e, 1
  {
    BinaryThread(e, inUse, w);
    CommentsOfPair(e.left, e.right, w.indent);
    SidesComments(e, e.left, e.right, inUse, w);
  }

  /** An assignment walks its target, then its value. */
  lemma {:induction false} AssignmentComments(e: Expr, inUse: seq<Library>, w: Writer)
    requires e.Assignment?
    ensures RewriteExpr(e, inUse, w).w.out == w.out + CommentLines(VisitedCallees(e), w.indent)
    decreases e, 1
  {
    AssignmentThread(e, inUse, w);
    CommentsOfPair(e.assignee, e.assignedValue, w.indent);
    SidesComments(e, e.assignee, e.assignedValue, inUse, w);
  }

  /** Two sides rewritten one after the other write their comments in turn. */
  lemma {:induction false} SidesComments(e: Expr, l: Expr, r: Expr, inUse: seq<Library>, w: Writer)
    requires e.Binary? || e.Assignment?
    requires e.Binary? ==> l == e.left && r == e.right
    requires e.Assignment? ==> l == e.assignee && r == e.assignedValue
    ensures RewriteExpr(r, inUse, RewriteExpr(l, inUse, w).w).w.out
      == w.out + (CommentLines(VisitedCallees(l), w.indent) + CommentLines(VisitedCallees(r), w.indent))
    decreases e, 0
  {
    var afterLeft := RewriteExpr(l, inUse, w).w;
    var afterRight := RewriteExpr(r, inUse, afterLeft).w;
    RewriteExprComments(l, inUse, w);
    RewriteExprComments(r, inUse, afterLeft);
    AppendTwice(w.out, afterLeft.out, afterRight.out,
                CommentLines(VisitedCallees(l), w.indent), CommentLines(VisitedCallees(r), w.indent));
  }


  lemma BinaryThread(e: Expr, inUse: seq<Library>, w: Writer)
    requires e.Binary?
    ensures RewriteExpr(e, inUse, w).w == RewriteExpr(e.right, inUse, RewriteExpr(e.left, inUse, w).w).w
  {
  }

  lemma AssignmentThread(e: Expr, inUse: seq<Library>, w: Writer)
    requires e.Assignment?
    ensures RewriteExpr(e, inUse, w).w == RewriteExpr(e.assignedValue, inUse, RewriteExpr(e.assignee, inUse, w).w).w
  {
  }

  lemma CommentsOfPair(l: Expr, r: Expr, indent: nat)
    ensures CommentLines(VisitedCallees(l) + VisitedCallees(r), indent)
      == CommentLines(VisitedCallees(l), indent) + CommentLines(VisitedCallees(r), indent)
  {
    CommentLinesAppend(VisitedCallees(l), VisitedCallees(r), indent);
  }

  // ---------------------------------------------------------------------
  // Applying a rule twice

  /** The binary rule keeps token kinds, so a second application changes
      nothing. */
  lemma BinaryRuleIdempotent(e: Expr)
    requires e.Binary?
    ensures BinaryRule(BinaryRule(e)) == BinaryRule(e)
  {
  }

  /** A second rewrite of a call made from a call changes nothing when the
      shipped libraries are in use: the callee is a plain name already folded
      through the same chain. */
  lemma InvocationRuleIdempotent(e: Expr, inUse: seq<Library>, w: Writer, w': Writer)
    requires e.Invocation? && Shipped(inUse)
    ensures var once := InvocationRule(e, inUse, w).node;
      InvocationRule(once, inUse, w').node == once
  {
    var once := InvocationRule(e, inUse, w).node;
    ShippedChainIdempotent(inUse, CodeGen.GetMethodName(e.callee, w).name);
    assert CodeGen.GetMethodName(once.callee, w').name == once.callee.identifier;
  }

  /** The node a rewrite produces does not depend on the writer; only the
      comments written do. */
  lemma {:induction false} RewriteExprNode(e: Expr, inUse: seq<Library>, w: Writer, w': Writer)
    ensures RewriteExpr(e, inUse, w).node == RewriteExpr(e, inUse, w').node
    decreases e
  {
    match e
    case MemberAccess(target, _) =>
      RewriteExprNode(target, inUse, w, w');
    case Assignment(l, _, v) =>
      RewriteExprNode(l, inUse, w, w');
      RewriteExprNode(v, inUse, RewriteExpr(l, inUse, w).w, RewriteExpr(l, inUse, w').w);
    case Parenthesized(x, _) =>
      RewriteExprNode(x, inUse, w, w');
    case _ =>
  }

  /** The same holds for initializers. */
  lemma RewriteInitializerNode(i: Initializer, inUse: seq<Library>, w: Writer, w': Writer)
    ensures RewriteInitializer(i, inUse, w).node == RewriteInitializer(i, inUse, w').node
  {
    if ToText(i.value) != "null" {
      RewriteExprNode(i.value, inUse, w, w');
    }
  }

  lemma RewriteInitializersNode(vs: seq<Declarator>, inUse: seq<Library>, w: Writer, w': Writer)
    ensures forall i | 0 <= i < |vs| && vs[i].initializer.Some? ::
      RewriteInitializer(vs[i].initializer.value, inUse, w).node
      == RewriteInitializer(vs[i].initializer.value, inUse, w').node
  {
    forall i | 0 <= i < |vs| && vs[i].initializer.Some?
      ensures RewriteInitializer(vs[i].initializer.value, inUse, w).node
              == RewriteInitializer(vs[i].initializer.value, inUse, w').node
    {
      RewriteInitializerNode(vs[i].initializer.value, inUse, w, w');
    }
  }

  /** Every `new T(...)` the rewrite reaches names its type by a plain
      identifier, as the rule's cast to an identifier name demands. */
  predicate PlainCreations(e: Expr)
    decreases e
  {
    match e
    case ObjectCreation(t, _, _) => '.' !in t
    case MemberAccess(target, _) => PlainCreations(target)
    case Assignment(l, _, v) => PlainCreations(l) && PlainCreations(v)
    case Parenthesized(x, _) => PlainCreations(x)
    case _ => true
  }

  /** Normalising an expression a second time changes nothing, with the
      shipped libraries in use and plain type names after `new`. */
  lemma {:induction false} RewriteExprIdempotent(e: Expr, inUse: seq<Library>, w: Writer, w': Writer)
    requires Shipped(inUse) && PlainCreations(e)
    ensures var once := RewriteExpr(e, inUse, w).node;
      RewriteExpr(once, inUse, w').node == once
    decreases e
  {
    match e
    case ObjectCreation(t, args, _) =>
      var callee := IdentifierName(t + ".new", false);
      CreationNameKept(inUse, t);
      var once := Invocation(callee, args);
      assert CodeGen.GetMethodName(callee, w').name == t + ".new";
      var again := InvocationRule(once, inUse, w').node;
      assert HasLeadingTrivia(once) == HasLeadingTrivia(callee) == false;
      assert HasLeadingTrivia(again) == again.callee.leading;
      assert again == once;
    case Cast(castType, _, _) =>
      if castType.IntKeyword? {
        DotFreeNameKept(inUse, "tonumber");
      } else if castType.StringKeyword? {
        DotFreeNameKept(inUse, "tostring");
      }
    case Binary(_, _, _) =>
      BinaryRuleIdempotent(e);
    case Invocation(_, _) =>
      InvocationRuleIdempotent(e, inUse, w, w');
    case MemberAccess(target, _) =>
      RewriteExprIdempotent(target, inUse, w, w');
    case Assignment(l, _, v) =>
      var left := RewriteExpr(l, inUse, w);
      RewriteExprIdempotent(l, inUse, w, w');
      RewriteExprIdempotent(v, inUse, left.w, RewriteExpr(left.node, inUse, w').w);
    case Parenthesized(x, _) =>
      RewriteExprIdempotent(x, inUse, w, w');
    case _ =>
  }

  /** Text holding a character `null` lacks is not `null`. */
  lemma NotNullText(s: string, k: nat)
    requires k < |s| && s[k] !in "null"
    ensures s != "null"
  {
  }

  /** A call, member access, binary node, assignment, parenthesised
      expression or `self` is never written `null`. */
  lemma ShapedNotNull(r: Expr)
    requires r.Invocation? || r.MemberAccess? || r.Binary? || r.Assignment? || r.Parenthesized?
          || (r.This? && r.keyword == "self")
    ensures ToText(r) != "null"
  {
    var s := ToText(r);
    match r
    case Invocation(callee, _) =>
      NotNullText(s, |ToText(callee)|);
    case MemberAccess(target, _) =>
      NotNullText(s, |ToText(target)|);
    case Binary(l, _, _) =>
      NotNullText(s, |ToText(l)|);
    case Assignment(l, _, _) =>
      NotNullText(s, |ToText(l)|);
    case Parenthesized(_, _) =>
      NotNullText(s, 0);
    case This(_, _) =>
      NotNullText(s, 0);
  }

  /** Only a value written `null` is rewritten to a value written `null`. */
  lemma RewrittenNotNull(e: Expr, inUse: seq<Library>, w: Writer)
    requires ToText(e) != "null"
    ensures ToText(RewriteExpr(e, inUse, w).node) != "null"
  {
    var r := RewriteExpr(e, inUse, w).node;
    if e.IdentifierName? || e.Literal? || e.OtherExpression? || (e.Cast? && e.castType.OtherKeyword?) {
      assert r == e;
    } else {
      ShapedNotNull(r);
    }
  }

  /** Normalising an initializer a second time changes nothing: `nil` is not
      `null`, and any other value is already normalised. */
  lemma RewriteInitializerIdempotent(i: Initializer, inUse: seq<Library>, w: Writer, w': Writer)
    requires Shipped(inUse) && PlainCreations(i.value)
    ensures var once := RewriteInitializer(i, inUse, w).node;
      RewriteInitializer(once, inUse, w').node == once
  {
    var once := RewriteInitializer(i, inUse, w).node;
    if ToText(i.value) == "null" {
      assert ToText(once.value) == "nil";
      NotNullText("nil", 1);
    } else {
      RewrittenNotNull(i.value, inUse, w);
      RewriteExprIdempotent(i.value, inUse, w, w');
    }
  }

  lemma {:induction false} RewriteExprsIdempotent(es: seq<Expr>, inUse: seq<Library>, w: Writer, w': Writer)
    requires Shipped(inUse) && forall i | 0 <= i < |es| :: PlainCreations(es[i])
    ensures var once := RewriteExprs(es, inUse, w).node;
      RewriteExprs(once, inUse, w').node == once
    decreases es
  {
    if |es| > 0 {
      var first := RewriteExpr(es[0], inUse, w);
      var rest := RewriteExprs(es[1..], inUse, first.w);
      var once := RewriteExprs(es, inUse, w).node;
      assert once[0] == first.node && once[1..] == rest.node;
      RewriteExprIdempotent(es[0], inUse, w, w');
      assert forall i | 0 <= i < |es[1..]| :: es[1..][i] == es[i + 1];
      RewriteExprsIdempotent(es[1..], inUse, first.w, RewriteExpr(first.node, inUse, w').w);
    }
  }

  /** Every initial value is free of qualified type names after `new`. */
  predicate PlainInitializers(vs: seq<Declarator>)
  {
    forall i | 0 <= i < |vs| :: vs[i].initializer.Some? ==> PlainCreations(vs[i].initializer.value.value)
  }

  /** The writer after rewriting one declarator's initializer, if any. */
  function InitializerWriter(v: Declarator, inUse: seq<Library>, w: Writer): Writer
  {
    if v.initializer.Some? then RewriteInitializer(v.initializer.value, inUse, w).w else w
  }

  lemma {:induction false} RewriteDeclaratorsIdempotent(vs: seq<Declarator>, inUse: seq<Library>, w: Writer, w': Writer)
    requires Shipped(inUse) && PlainInitializers(vs)
    ensures var once := RewriteDeclarators(vs, inUse, w).node;
      RewriteDeclarators(once, inUse, w').node == once
    decreases vs
  {
    if |vs| > 0 {
      var v := vs[0];
      var once := RewriteDeclarators(vs, inUse, w).node;
      var rest := RewriteDeclarators(vs[1..], inUse, InitializerWriter(v, inUse, w));
      assert once[1..] == rest.node;
      if v.initializer.Some? {
        RewriteInitializerIdempotent(v.initializer.value, inUse, w, w');
      }
      assert PlainInitializers(vs[1..]) by {
        assert forall i | 0 <= i < |vs[1..]| :: vs[1..][i] == vs[i + 1];
      }
      RewriteDeclaratorsIdempotent(vs[1..], inUse, InitializerWriter(v, inUse, w), InitializerWriter(once[0], inUse, w'));
    }
  }

  lemma RewriteDeclarationIdempotent(d: VariableDeclaration, inUse: seq<Library>, w: Writer, w': Writer)
    requires Shipped(inUse) && PlainInitializers(d.variables)
    ensures var once := RewriteDeclaration(d, inUse, w).node;
      RewriteDeclaration(once, inUse, w').node == once
  {
    RewriteDeclaratorsIdempotent(d.variables, inUse, w, w');
  }

  /** Every expression the rewrite of `s` reaches has plain type names after `new`. */
  predicate PlainCreationsStmt(s: Stmt)
    decreases s
  {
    match s
    case ExpressionStatement(e) => PlainCreations(e)
    case LocalDeclaration(d) => PlainInitializers(d.variables)
    case Block(ss) => forall i | 0 <= i < |ss| :: PlainCreationsStmt(ss[i])
    case If(c, t, e) => PlainCreations(c) && PlainCreationsStmt(t) && (e.Some? ==> PlainCreationsStmt(e.value))
    case While(c, body) => PlainCreations(c) && PlainCreationsStmt(body)
    case For(d, c, incs, body) =>
      && PlainInitializers(d.variables) && PlainCreations(c)
      && (forall i | 0 <= i < |incs| :: PlainCreations(incs[i]))
      && PlainCreationsStmt(body)
    case ForEach(_, _, coll, body) => PlainCreations(coll) && PlainCreationsStmt(body)
    case Return(value) => value.Some? ==> PlainCreations(value.value)
    case OtherStatement(_) => true
  }

  /** Normalising a statement a second time changes nothing. */
  lemma {:induction false} RewriteStmtIdempotent(s: Stmt, inUse: seq<Library>, w: Writer, w': Writer)
    requires Shipped(inUse) && PlainCreationsStmt(s)
    ensures var once := RewriteStmt(s, inUse, w).node;
      RewriteStmt(once, inUse, w').node == once
    decreases s, 1
  {
    match s
    case ExpressionStatement(e) =>
      RewriteExprIdempotent(e, inUse, w, w');
    case LocalDeclaration(d) =>
      RewriteDeclarationIdempotent(d, inUse, w, w');
    case Block(ss) =>
      RewriteStmtsIdempotent(ss, inUse, w, w');
    case If(c, t, e) =>
      var cond := RewriteExpr(c, inUse, w);
      var cond2 := RewriteExpr(cond.node, inUse, w');
      var th := RewriteStmt(t, inUse, cond.w);
      var th2 := RewriteStmt(th.node, inUse, cond2.w);
      RewriteExprIdempotent(c, inUse, w, w');
      RewriteStmtIdempotent(t, inUse, cond.w, cond2.w);
      if e.Some? {
        RewriteStmtIdempotent(e.value, inUse, th.w, th2.w);
      }
    case While(c, body) =>
      var cond := RewriteExpr(c, inUse, w);
      RewriteExprIdempotent(c, inUse, w, w');
      RewriteStmtIdempotent(body, inUse, cond.w, RewriteExpr(cond.node, inUse, w').w);
    case For(_, _, _, _) =>
      ForIdempotent(s, inUse, w, w');
    case ForEach(_, _, coll, body) =>
      var c := RewriteExpr(coll, inUse, w);
      RewriteExprIdempotent(coll, inUse, w, w');
      RewriteStmtIdempotent(body, inUse, c.w, RewriteExpr(c.node, inUse, w').w);
    case Return(value) =>
      if value.Some? {
        RewriteExprIdempotent(value.value, inUse, w, w');
      }
    case OtherStatement(_) =>
  }

  lemma {:induction false} ForIdempotent(s: Stmt, inUse: seq<Library>, w: Writer, w': Writer)
    requires s.For? && Shipped(inUse) && PlainCreationsStmt(s)
    ensures var once := RewriteStmt(s, inUse, w).node;
      RewriteStmt(once, inUse, w').node == once
    decreases s, 0
  {
    var decl := RewriteDeclaration(s.declaration, inUse, w);
    var cond := RewriteExpr(s.condition, inUse, decl.w);
    var steps := RewriteExprs(s.incrementors, inUse, cond.w);
    var decl2 := RewriteDeclaration(decl.node, inUse, w');
    var cond2 := RewriteExpr(cond.node, inUse, decl2.w);
    var steps2 := RewriteExprs(steps.node, inUse, cond2.w);
    RewriteDeclarationIdempotent(s.declaration, inUse, w, w');
    RewriteExprIdempotent(s.condition, inUse, decl.w, decl2.w);
    RewriteExprsIdempotent(s.incrementors, inUse, cond.w, cond2.w);
    RewriteStmtIdempotent(s.body, inUse, steps.w, steps2.w);
  }

  lemma {:induction false} RewriteStmtsIdempotent(ss: seq<Stmt>, inUse: seq<Library>, w: Writer, w': Writer)
    requires Shipped(inUse) && forall i | 0 <= i < |ss| :: PlainCreationsStmt(ss[i])
    ensures var once := RewriteStmts(ss, inUse, w).node;
      RewriteStmts(once, inUse, w').node == once
    decreases ss
  {
    if |ss| > 0 {
      var first := RewriteStmt(ss[0], inUse, w);
      var rest := RewriteStmts(ss[1..], inUse, first.w);
      var once := RewriteStmts(ss, inUse, w).node;
      assert once[0] == first.node && once[1..] == rest.node;
      RewriteStmtIdempotent(ss[0], inUse, w, w');
      assert forall i | 0 <= i < |ss[1..]| :: ss[1..][i] == ss[i + 1];
      RewriteStmtsIdempotent(ss[1..], inUse, first.w, RewriteStmt(first.node, inUse, w').w);
    }
  }

  predicate PlainCreationsMember(m: Member)
    decreases m
  {
    match m
    case Namespace(_, ms) => forall i | 0 <= i < |ms| :: PlainCreationsMember(ms[i])
    case Class(_, ms) => forall i | 0 <= i < |ms| :: PlainCreationsMember(ms[i])
    case Method(_, _, body) => PlainCreationsStmt(body)
    case Constructor(_, body) => PlainCreationsStmt(body)
    case Field(d) => PlainInitializers(d.variables)
  }

  lemma {:induction false} RewriteMemberIdempotent(m: Member, inUse: seq<Library>, w: Writer, w': Writer)
    requires Shipped(inUse) && PlainCreationsMember(m)
    ensures var once := RewriteMember(m, inUse, w).node;
      RewriteMember(once, inUse, w').node == once
    decreases m
  {
    match m
    case Namespace(_, ms) => RewriteMembersIdempotent(ms, inUse, w, w');
    case Class(_, ms) => RewriteMembersIdempotent(ms, inUse, w, w');
    case Method(_, _, body) => RewriteStmtIdempotent(body, inUse, w, w');
    case Constructor(_, body) => RewriteStmtIdempotent(body, inUse, w, w');
    case Field(d) => RewriteDeclarationIdempotent(d, inUse, w, w');
  }

  lemma {:induction false} RewriteMembersIdempotent(ms: seq<Member>, inUse: seq<Library>, w: Writer, w': Writer)
    requires Shipped(inUse) && forall i | 0 <= i < |ms| :: PlainCreationsMember(ms[i])
    ensures var once := RewriteMembers(ms, inUse, w).node;
      RewriteMembers(once, inUse, w').node == once
    decreases ms
  {
    if |ms| > 0 {
      var first := RewriteMember(ms[0], inUse, w);
      var rest := RewriteMembers(ms[1..], inUse, first.w);
      var once := RewriteMembers(ms, inUse, w).node;
      assert once[0] == first.node && once[1..] == rest.node;
      RewriteMemberIdempotent(ms[0], inUse, w, w');
      assert forall i | 0 <= i < |ms[1..]| :: ms[1..][i] == ms[i + 1];
      RewriteMembersIdempotent(ms[1..], inUse, first.w, RewriteMember(first.node, inUse, w').w);
    }
  }

  /** Normalising a whole unit a second time, with the shipped libraries in
      use, gives back the same tree: the rewrite is a normal form. */
  lemma RewriteUnitIdempotent(unit: CompilationUnit, inUse: seq<Library>, w: Writer, w': Writer)
    requires Shipped(inUse) && forall i | 0 <= i < |unit.members| :: PlainCreationsMember(unit.members[i])
    ensures var once := RewriteUnit(unit, inUse, w).node;
      RewriteUnit(once, inUse, w').node == once
  {
    RewriteMembersIdempotent(unit.members, inUse, w, w');
  }

  // ---------------------------------------------------------------------
  // Where the original throws

  /** The keywords of C#'s predefined types: `new int()` names its type by
      a keyword, not an identifier. */
  const PredefinedTypeKeywords: set<string> :=
    {"bool", "byte", "sbyte", "char", "decimal", "double", "float", "int", "uint",
     "long", "ulong", "short", "ushort", "object", "string", "void"}

  /** Characters that only a qualified, alias-qualified, generic, array,
      nullable, pointer or tuple type name contains. */
  const TypeSyntaxPunctuation: set<char> := {'.', ':', '<', '>', '[', ']', '?', '*', '(', ')', ',', ' '}

  /** A type name Roslyn parses as an `IdentifierNameSyntax`, the only kind
      the object-creation rule's `as` cast lets through. */
  predicate IdentifierTypeName(t: string)
  {
    |t| > 0 && t !in PredefinedTypeKeywords && forall c <- t :: c !in TypeSyntaxPunctuation
  }

  /** A cast the cast rule does not throw on: `as PredefinedTypeSyntax`
      must succeed, so the target is a predefined keyword, and `int` and
      `string` are spelled by their own constructors. */
  predicate PredefinedCastTarget(t: PredefinedType)
  {
    t.OtherKeyword? ==> t.keyword in PredefinedTypeKeywords - {"int", "string"}
  }

  /** The normaliser does not throw on `e`: every `new T(...)` it reaches
      names its type by an identifier and every cast it reaches has a
      predefined target. The rewrite reaches the operands of a binary node,
      since the binary rule visits them, but not the arguments of a call, a
      cast or a `new`, whose rules do not call the base visitor. */
  predicate Rewritable(e: Expr)
    decreases e
  {
    match e
    case ObjectCreation(t, _, _) => IdentifierTypeName(t)
    case Cast(t, _, _) => PredefinedCastTarget(t)
    case Binary(l, _, r) => Rewritable(l) && Rewritable(r)
    case MemberAccess(target, _) => Rewritable(target)
    case Assignment(l, _, v) => Rewritable(l) && Rewritable(v)
    case Parenthesized(x, _) => Rewritable(x)
    case _ => true
  }

  /** The initializer rule does not visit a value written `null`. */
  predicate RewritableInitializers(vs: seq<Declarator>)
  {
    forall i | 0 <= i < |vs| ::
      vs[i].initializer.Some? && ToText(vs[i].initializer.value.value) != "null" ==>
        Rewritable(vs[i].initializer.value.value)
  }

  predicate RewritableStmt(s: Stmt)
    decreases s
  {
    match s
    case ExpressionStatement(e) => Rewritable(e)
    case LocalDeclaration(d) => RewritableInitializers(d.variables)
    case Block(ss) => forall i | 0 <= i < |ss| :: RewritableStmt(ss[i])
    case If(c, t, e) =>
      Rewritable(c) && RewritableStmt(t) && (e.Some? ==> RewritableStmt(e.value))
    case While(c, body) => Rewritable(c) && RewritableStmt(body)
    case For(d, c, incs, body) =>
      && RewritableInitializers(d.variables) && Rewritable(c)
      && (forall i | 0 <= i < |incs| :: Rewritable(incs[i]))
      && RewritableStmt(body)
    case ForEach(_, _, coll, body) => Rewritable(coll) && RewritableStmt(body)
    case Return(value) => value.Some? ==> Rewritable(value.value)
    case OtherStatement(_) => true
  }

  predicate RewritableMember(m: Member)
    decreases m
  {
    match m
    case Namespace(_, ms) => forall i | 0 <= i < |ms| :: RewritableMember(ms[i])
    case Class(_, ms) => forall i | 0 <= i < |ms| :: RewritableMember(ms[i])
    case Method(_, _, body) => RewritableStmt(body)
    case Constructor(_, body) => RewritableStmt(body)
    case Field(d) => RewritableInitializers(d.variables)
  }

  /** `sr.Visit(root)` returns, rather than throwing from the object-creation
      rule, exactly on the units this predicate accepts. */
  predicate RewritableUnit(unit: CompilationUnit)
  {
    forall i | 0 <= i < |unit.members| :: RewritableMember(unit.members[i])
  }

  /** A unit the normaliser does not throw on meets the idempotence
      lemmas' precondition: an identifier type name has no dot. */
  lemma {:induction false} RewritableIsPlain(e: Expr)
    requires Rewritable(e)
    ensures PlainCreations(e)
    decreases e
  {
    match e
    case ObjectCreation(t, _, _) =>
      assert '.' in TypeSyntaxPunctuation;
    case MemberAccess(target, _) => RewritableIsPlain(target);
    case Assignment(l, _, v) => RewritableIsPlain(l); RewritableIsPlain(v);
    case Parenthesized(x, _) => RewritableIsPlain(x);
    case _ =>
  }

  lemma RewritableInitializersArePlain(vs: seq<Declarator>)
    requires RewritableInitializers(vs)
    ensures PlainInitializers(vs)
  {
    forall i | 0 <= i < |vs| && vs[i].initializer.Some?
      ensures PlainCreations(vs[i].initializer.value.value)
    {
      var v := vs[i].initializer.value.value;
      if ToText(v) == "null" {
        if v.MemberAccess? || v.Assignment? || v.Parenthesized? {
          ShapedNotNull(v);
        }
      } else {
        RewritableIsPlain(v);
      }
    }
  }

  lemma {:induction false} RewritableStmtIsPlain(s: Stmt)
    requires RewritableStmt(s)
    ensures PlainCreationsStmt(s)
    decreases s
  {
    match s
    case ExpressionStatement(e) => RewritableIsPlain(e);
    case LocalDeclaration(d) => RewritableInitializersArePlain(d.variables);
    case Block(ss) =>
      forall i | 0 <= i < |ss| ensures PlainCreationsStmt(ss[i]) {
        RewritableStmtIsPlain(ss[i]);
      }
    case If(c, t, e) =>
      RewritableIsPlain(c);
      RewritableStmtIsPlain(t);
      if e.Some? { RewritableStmtIsPlain(e.value); }
    case While(c, body) =>
      RewritableIsPlain(c);
      RewritableStmtIsPlain(body);
    case For(d, c, incs, body) =>
      RewritableInitializersArePlain(d.variables);
      RewritableIsPlain(c);
      forall i | 0 <= i < |incs| ensures PlainCreations(incs[i]) {
        RewritableIsPlain(incs[i]);
      }
      RewritableStmtIsPlain(body);
    case ForEach(_, _, coll, body) =>
      RewritableIsPlain(coll);
      RewritableStmtIsPlain(body);
    case Return(value) =>
      if value.Some? { RewritableIsPlain(value.value); }
    case OtherStatement(_) =>
  }

  lemma {:induction false} RewritableMemberIsPlain(m: Member)
    requires RewritableMember(m)
    ensures PlainCreationsMember(m)
    decreases m
  {
    match m
    case Namespace(_, ms) =>
      forall i | 0 <= i < |ms| ensures PlainCreationsMember(ms[i]) {
        RewritableMemberIsPlain(ms[i]);
      }
    case Class(_, ms) =>
      forall i | 0 <= i < |ms| ensures PlainCreationsMember(ms[i]) {
        RewritableMemberIsPlain(ms[i]);
      }
    case Method(_, _, body) => RewritableStmtIsPlain(body);
    case Constructor(_, body) => RewritableStmtIsPlain(body);
    case Field(d) => RewritableInitializersArePlain(d.variables);
  }
}

=== FILE: wrappers.dfy ===
/** Option and Result, the failure-compatible wrappers the translator model uses
    for a missing initializer or entry point and for the exceptions the source
    lets escape (a duplicate dictionary key). */
module Wrappers {

  datatype Option<+T> = None | Some(value: T) {

    /** The value, or `default` when there is none (C#'s `?.` followed by interpolation). */
    function GetOr(default: T): T {
      match this
      case Some(v) => v
      case None => default
    }
  }

  datatype Result<+T, +E> = Success(value: T) | Failure(error: E) {

    predicate IsFailure() {
      Failure?
    }

    function PropagateFailure<U>(): Result<U, E>
      requires Failure?
    {
      Failure(error)
    }

    function Extract(): T
      requires Success?
    {
      value
    }
  }
}
